=== FILE: README.md ===
# code-insight fact extraction, modelled in Dafny

The `code-insight` C# parser opens a solution and walks every document of every project.
From the compiler's answers about each declaration it derives facts: classes, records,
methods, invocations and diagnostics. It writes each fact to a Neo4j graph as one Cypher
statement through `GraphDbService`. This project models that pipeline as pure functions
and proves what it promises. The modules are:

- `Semantics`: what the compiler front end answers, as plain data. This covers type trees,
  symbol resolution with candidates, declarations, catch clauses, data-flow symbols and
  diagnostics. Every lookup that can fail in the front end is an `Option` here.
- `Processor`: the five extractors of `Processor.cs` and the generic-argument walk. Each is a
  function from those answers to the sequence of service calls it makes.
- `PropertyGraph`: an abstract property graph and the Cypher shapes the services use.
  - CREATE always appends a node.
  - MERGE binds every match, or creates one node.
  - MERGE…MATCH…MERGE links only owners that already exist.
  - SET and label-adding change only matching nodes.
  - DETACH DELETE empties the graph.
  - The backup query returns one row per relationship.
  - Index creation is if-not-exists.
- `GraphDb`: every call of the later `GraphDbService` as a step on that graph, with one
  dispatcher `Apply` over the `Op` datatype.
- `LegacyGraphDb`: the earlier `GraphDbService` of `parser/`, where records are stored under
  `name`.
- `Names`: `Utils.GetShortName`.
- `Pipeline`: the driver `Program.cs` as a trace of service calls. It runs backup, clear, the
  argument check, the project and document loops with their skips, and the index creation.
  `Execute` runs such a trace on a graph.
- `Base`: `Option`, sequence filters and concatenation helpers.

The model follows the code, including these behaviours that are easy to misread:

- The generic walk tries to add the enclosing generic type's name once per type argument; a
  non-generic argument's own name is never recorded. For `Box<Pair<A, B>>` the class depends
  on `Box<Pair<A, B>>` and `Pair<A, B>`, but not on `A` or `B`.
- The class and record nodes are created under the identifier's value (`Identifier.ValueText`,
  without a verbatim `@`). Every other fact names the declaration by its full display name,
  which for an unresolved declaration falls back to the identifier as written
  (`Identifier.Text`, keeping the `@`).
- Record nodes hold their name under `sname`, while the dependency statement looks for
  `Record {name: …}`. Therefore a run, which clears the database first, never creates a
  DEPENDS_ON relationship, whether for classes or for records (`Pipeline.RunLeavesNoDependsOn`).
- The god-class threshold is the hard-coded constant 100 with a strict comparison.
- A diagnostic is attributed to the first class declaration strictly above the syntax node
  found at its span. A diagnostic reported on a class's own header (a missing abstract member,
  a duplicate type) finds that class declaration itself, so it is dropped for a top-level class
  and credited to the outer class for a nested one (`Processor.ClassHeaderDiagnostics`).

## Model

| member | source | states |
|---|---|---|
| Names.LastIndexOf | parser/CsParser/Utils.cs:7 | the result is -1 or an index holding the character, and no later index holds it |
| Names.GetShortName | parser/CsParser/Utils.cs:5-8 | the short name has no '.', is a suffix of the full name, and is either all of it or preceded by a '.' |
| Names.ShortNameUnique | parser/CsParser/Utils.cs:7 | those three properties determine the short name: any string with them equals it |
| Names.ShortNameOfUndotted | parser/CsParser/Utils.cs:7 | a name without '.' is its own short name |
| Names.ShortNameAfterLastDot | parser/CsParser/Utils.cs:7 | a name with a '.' gives exactly the text after a '.' that has no '.' after it |
| Names.ShortNameIdempotent | parser/CsParser/Utils.cs:7 | shortening twice is shortening once |
| Names.ShortNameOfTrailingDot | parser/CsParser/Utils.cs:7 | a name ending in '.' gives the empty string |
| PropertyGraph.MatchAll | code-insight/CsParser/GraphDbService.cs:63 | MATCH binds exactly the existing nodes with the pattern's labels and properties |
| PropertyGraph.Create | code-insight/CsParser/GraphDbService.cs:41 | CREATE appends one node, keeps every other node, and adds it to the pattern's matches |
| PropertyGraph.Merge | code-insight/CsParser/GraphDbService.cs:74-76 | MERGE binds all matches and changes nothing when one exists; otherwise it appends the pattern's node; it never touches relationships or schema |
| PropertyGraph.SetProp | code-insight/CsParser/GraphDbService.cs:134-135 | SET writes the key on every matching node and leaves other nodes, relationships and schema alone |
| PropertyGraph.SetPropLastWriteWins | code-insight/CsParser/GraphDbService.cs:134-135 | two SETs of a key the MATCH does not filter on leave every node as the second SET alone would |
| PropertyGraph.AddLabel | code-insight/CsParser/GraphDbService.cs:174 | adding a label touches only the labels of matching nodes |
| PropertyGraph.DetachDeleteAll | code-insight/CsParser/GraphDbService.cs:34 | DETACH DELETE of every node leaves no node and no relationship, and keeps the schema |
| PropertyGraph.Dump | code-insight/CsParser/GraphDbService.cs:22 | the backup query returns exactly one row per relationship with both end nodes |
| PropertyGraph.DumpOmitsIsolatedNodes | code-insight/CsParser/GraphDbService.cs:22 | a node appears in the backup iff some relationship touches it |
| PropertyGraph.CreateIndexIfNotExists | code-insight/CsParser/GraphDbService.cs:195-201 | the index exists afterwards; an existing index of that name leaves the graph unchanged |
| PropertyGraph.MergeMergeLinkEffect | code-insight/CsParser/GraphDbService.cs:70-78 | both MERGEd nodes exist afterwards; at most two nodes are appended, each one of the two patterns; the relationship joins every bound pair |
| PropertyGraph.MergeMergeLinkIdempotent | code-insight/CsParser/GraphDbService.cs:70-78 | a MERGE-MERGE-link statement run twice equals it run once |
| PropertyGraph.MergeMatchLinkEffect | code-insight/CsParser/GraphDbService.cs:57-68 | the target exists afterwards; owners are never created; relationships come only from owners that existed before |
| PropertyGraph.MergeMatchLinkIdempotent | code-insight/CsParser/GraphDbService.cs:57-68 | a MERGE-MATCH-link statement run twice equals it run once |
| PropertyGraph.MergeMergeLinkIgnoresSchema | code-insight/CsParser/GraphDbService.cs:70-167 | the MERGE-only statements neither read nor change the index schema |
| GraphDb.ClearDatabaseStep | code-insight/CsParser/GraphDbService.cs:31-35 | clearing leaves an empty, valid graph with the schema kept |
| GraphDb.CreateRecordNodeStep | code-insight/CsParser/GraphDbService.cs:37-45 | a new Record node every time, with its name under `sname` and never `name`, the short name and the embedding of its code |
| GraphDb.CreateClassNodeStep | code-insight/CsParser/GraphDbService.cs:47-55 | a new Class node every time, even when one of that name exists, with short name and embedding |
| GraphDb.CreateDependencyStep | code-insight/CsParser/GraphDbService.cs:57-68 | the Type node always exists afterwards; no Record is created; DEPENDS_ON edges come only from Records that already existed |
| GraphDb.CreateMethodCallStep | code-insight/CsParser/GraphDbService.cs:99-108 | the Method node always exists afterwards; no Class is created; CALLS edges come only from existing Classes |
| GraphDb.CreateDiagnosticIssueStep | code-insight/CsParser/GraphDbService.cs:179-189 | the Diagnostic node always exists afterwards; no Class is created; HAS_ISSUE edges come only from existing Classes |
| GraphDb.AddBranchingComplexityStep | code-insight/CsParser/GraphDbService.cs:130-137 | with no Method of that name the graph is unchanged; otherwise only the matching Methods' `branchCount` changes |
| GraphDb.TagGodClassStep | code-insight/CsParser/GraphDbService.cs:170-177 | every node of any label whose `name` matches gains GodClass; properties, other labels and relationships are unchanged |
| GraphDb.CreateVectorIndexStep | code-insight/CsParser/GraphDbService.cs:191-202 | the `class_embedding` index exists afterwards with 384 dimensions and cosine similarity when new; an existing one changes nothing |
| GraphDb.ShapeLabelsDistinct | code-insight/CsParser/GraphDbService.cs:70-167 | the two patterns of every MERGE-only statement never match each other's node |
| GraphDb.MergeStep | code-insight/CsParser/GraphDbService.cs:70-167 | each of the eight MERGE-only statements leaves both nodes present, appends only those nodes, and links every bound pair |
| GraphDb.Apply | code-insight/CsParser/GraphDbService.cs:17-202 | after every call, every relationship still joins existing nodes; only index creation changes the schema |
| GraphDb.PureMergeIdempotent | code-insight/CsParser/GraphDbService.cs:70-167 | each of the eight MERGE-only calls applied twice equals it applied once |
| GraphDb.OwnerMatchIdempotent | code-insight/CsParser/GraphDbService.cs:57-68 | the dependency, method-call and diagnostic calls applied twice equal them applied once |
| GraphDb.ClassCreatedTwice | code-insight/CsParser/GraphDbService.cs:47-55 | creating the same class twice gives two more nodes, both matching that name |
| GraphDb.RecordCreatedTwice | code-insight/CsParser/GraphDbService.cs:37-45 | creating the same record twice gives two equal new nodes carrying that `sname` |
| GraphDb.RecordGetsNoDependencyEdge | code-insight/CsParser/GraphDbService.cs:37-68 | a dependency declared for a record just created adds the Type node but no relationship out of the record |
| GraphDb.BranchCountLastWriteWins | code-insight/CsParser/GraphDbService.cs:130-137 | two branch counts for one method leave the graph as the second alone does |
| GraphDb.TagGodClassIdempotent | code-insight/CsParser/GraphDbService.cs:170-177 | tagging twice equals tagging once |
| GraphDb.DiagnosticKeyIsWholeTuple | code-insight/CsParser/GraphDbService.cs:184 | one diagnostic node matches another's key iff id, message, severity and category all agree |
| GraphDb.DiagnosticSharedByTuple | code-insight/CsParser/GraphDbService.cs:179-189 | a second issue with the same tuple, for any class, creates no node |
| GraphDb.VectorIndexIdempotent | code-insight/CsParser/GraphDbService.cs:195-201 | creating the index twice equals creating it once |
| GraphDb.ApplyIgnoresSchema | code-insight/CsParser/GraphDbService.cs:31-189 | every call other than index creation has the same effect whatever the schema is, and keeps it |
| GraphDb.DependencyKeepsNoDependsOn | code-insight/CsParser/GraphDbService.cs:57-68 | with no Record holding a `name`, the dependency statement finds no owner and adds no DEPENDS_ON edge |
| GraphDb.ShapeAvoidsRecords | code-insight/CsParser/GraphDbService.cs:70-167 | no MERGE-only statement creates a Record or a DEPENDS_ON relationship |
| GraphDb.ApplyKeepsNoDependsOn | code-insight/CsParser/GraphDbService.cs:37-189 | if no Record carries `name` and no DEPENDS_ON exists, this stays true after every call |
| LegacyGraphDb.ClearDatabase | parser/CsParser/GraphDbService.cs:25-29 | clearing leaves no node, no relationship and an empty backup |
| LegacyGraphDb.CreateRecordNode | parser/CsParser/GraphDbService.cs:31-39 | a new Record node every time, found afterwards as `Record {name}` |
| LegacyGraphDb.CreateClassNode | parser/CsParser/GraphDbService.cs:41-49 | a new Class node every time, found afterwards as `Class {name}` |
| LegacyGraphDb.CreateDependency | parser/CsParser/GraphDbService.cs:51-62 | the Type node always exists afterwards; at most that node is added; DEPENDS_ON edges come only from existing Records |
| LegacyGraphDb.DependencyEdgeIffRecordExists | parser/CsParser/GraphDbService.cs:54-59 | a DEPENDS_ON edge to the type exists afterwards iff a Record of that name existed |
| LegacyGraphDb.CreatedRecordGetsDependency | parser/CsParser/GraphDbService.cs:31-62 | a record created by this service is found: the dependency edge leaves the new record |
| LegacyGraphDb.DependencyIdempotent | parser/CsParser/GraphDbService.cs:51-62 | the dependency statement applied twice equals it applied once |
| LegacyGraphDb.DependencyKeepsDeclarations | parser/CsParser/GraphDbService.cs:51-62 | the dependency statement never creates or alters a Class or Record node |
| Semantics.Resolve | code-insight/CsParser/Processor.cs:39-41 | the resolved symbol, else the first candidate, else nothing; nothing iff both are missing |
| Processor.AddName | code-insight/CsParser/Processor.cs:42-45 | adding to the per-class set reports a name as new exactly when it was absent |
| Processor.ChainGrows | code-insight/CsParser/Processor.cs:18 | two successive steps on the per-class set compose into one step that reports every new name exactly once |
| Processor.ExtractGenericTypeArguments | code-insight/CsParser/Processor.cs:244-261 | the walk terminates; the set gains exactly the names of the generic types in the tree; each new name is reported once |
| Processor.WalkArguments | code-insight/CsParser/Processor.cs:249-259 | the loop over the remaining type arguments adds the enclosing type's name (if any argument is left) and the generic names below them |
| Processor.MemberDependency | code-insight/CsParser/Processor.cs:39-49 | a member whose type resolves adds its display name and its generic names; an unresolved one adds nothing |
| Processor.MemberDependencies | code-insight/CsParser/Processor.cs:36-70 | the member walk adds exactly the names of all property and field types, each reported once |
| Processor.DependencyOps | code-insight/CsParser/Processor.cs:42-45 | one dependency call per reported name, in order, owned by the class |
| Processor.SupertypeOps | code-insight/CsParser/Processor.cs:26-34 | an inheritance fact iff the class resolves with a base other than object; one implementation fact per direct interface |
| Processor.AttributeOps | code-insight/CsParser/Processor.cs:72-81 | an attribute fact exactly for each attribute that resolves |
| Processor.ClassOps | code-insight/CsParser/Processor.cs:23-89 | the class node comes first; every other call belongs to the class's full name |
| Processor.ClassOpsRelations | code-insight/CsParser/Processor.cs:26-81 | inheritance, interface and attribute facts exactly as the symbol and attributes give them |
| Processor.ClassOpsDependencyTag | code-insight/CsParser/Processor.cs:42-89 | a dependency call exactly for the reported names, and the tag exactly for a god class |
| Processor.ClassOpsDependencies | code-insight/CsParser/Processor.cs:36-70 | the dependency calls among a class's calls are one per reported name, in order |
| Processor.ClassOwnership | code-insight/CsParser/Processor.cs:19-24 | the class node uses the identifier's value; every other fact names the full display name, which falls back to the identifier as written |
| Processor.VerbatimClassNames | code-insight/CsParser/Processor.cs:19-23 | an unresolved `class @event` gets a node named `event` while its other facts name `@event` |
| Processor.ClassRelations | code-insight/CsParser/Processor.cs:26-81 | for a class as processed: inheritance unless the base is object, every direct interface, every resolved attribute |
| Processor.ClassDependencyFacts | code-insight/CsParser/Processor.cs:18-70 | a dependency call for exactly the distinct member type names, and as many calls as names, so none is repeated |
| Processor.GodClassIff | code-insight/CsParser/Processor.cs:83-89 | tagged as a god class iff more than 100 distinct dependency names; exactly 100 is not tagged |
| Processor.LeafWalk | code-insight/CsParser/Processor.cs:247 | a non-generic named type adds nothing to the walk |
| Processor.PairTailWalk | code-insight/CsParser/Processor.cs:249-259 | once `Pair<A, B>` is recorded, its second argument adds nothing |
| Processor.PairWalk | code-insight/CsParser/Processor.cs:244-261 | walking `Pair<A, B>` adds `Pair<A, B>` once, never `A` or `B` |
| Processor.BoxWalk | code-insight/CsParser/Processor.cs:244-261 | walking `Box<Pair<A, B>>` after its name is recorded adds only `Pair<A, B>` |
| Processor.NestedGenericExample | code-insight/CsParser/Processor.cs:36-50 | a property of type `Box<Pair<A, B>>` yields dependencies `Box<Pair<A, B>>` then `Pair<A, B>`, never `A` |
| Processor.ParameterDependencyOps | code-insight/CsParser/Processor.cs:106-114 | one dependency call per parameter whose type resolves, in order, repeats kept |
| Processor.RecordFacts | code-insight/CsParser/Processor.cs:93-116 | the record node first under the identifier's value with the namespace fallback, then one dependency call per resolved parameter, in parameter order, owned by the full name |
| Processor.VerbatimRecordNames | code-insight/CsParser/Processor.cs:99-103 | an unresolved `record @params` gets a node named `params` while its dependency is owned by `@params` |
| Processor.RecordKeepsRepeats | code-insight/CsParser/Processor.cs:106-114 | two parameters of one type give two identical dependency calls |
| Processor.ReturnTypeOps | code-insight/CsParser/Processor.cs:135-138 | a return-type fact iff the method does not return void |
| Processor.ParameterOps | code-insight/CsParser/Processor.cs:140-143 | one parameter fact per parameter, for exactly the parameter types |
| Processor.CatchOps | code-insight/CsParser/Processor.cs:146-158 | a handler fact exactly for each typed catch clause whose type resolves |
| Processor.ReadOps | code-insight/CsParser/Processor.cs:164-170 | a variable-read fact exactly for each local among the symbols flowing in |
| Processor.ConditionOps | code-insight/CsParser/Processor.cs:172-177 | one condition fact per `if` statement, for exactly the conditions |
| Processor.BranchOps | code-insight/CsParser/Processor.cs:179-184 | a branch-count fact iff the count of `if` plus `switch` statements is positive, carrying that count |
| Processor.BodyOps | code-insight/CsParser/Processor.cs:160-186 | no body fact without a block body or a data-flow answer |
| Processor.MethodOps | code-insight/CsParser/Processor.cs:133-186 | every fact extracted from an owned method names that method |
| Processor.ProcessMethod | code-insight/CsParser/Processor.cs:122-187 | nothing unless the method, its class and the class symbol resolve; then every fact names the method |
| Processor.MethodOwnership | code-insight/CsParser/Processor.cs:124-133 | every fact of a method hangs on its display name, and there are none when the method is not owned |
| Processor.MethodOpsSignature | code-insight/CsParser/Processor.cs:135-158 | return type unless void, every parameter type, every resolved catch type |
| Processor.MethodOpsBody | code-insight/CsParser/Processor.cs:160-184 | reads, conditions and branch count iff the body was analysed |
| Processor.MethodOpsParameters | code-insight/CsParser/Processor.cs:140-143 | the parameter facts among a method's facts are one per parameter, in order |
| Processor.BodyOpsConditions | code-insight/CsParser/Processor.cs:172-177 | the condition facts among the body facts are one per `if`, in order |
| Processor.MethodOpsConditions | code-insight/CsParser/Processor.cs:172-177 | the condition facts among a method's facts are one per `if`, in order |
| Processor.MethodSignatureFacts | code-insight/CsParser/Processor.cs:124-158 | for an owned method: return type unless void, as many parameter facts as parameters, each resolved catch type |
| Processor.MethodBodyFacts | code-insight/CsParser/Processor.cs:160-184 | for an owned method: body facts iff analysed, one condition per `if`, branch count only when positive |
| Processor.ProcessMethodCalls | code-insight/CsParser/Processor.cs:190-208 | a call fact exactly for each invocation whose method and caller class resolve |
| Processor.ProcessDiagnostics | code-insight/CsParser/Processor.cs:210-242 | an issue exactly for each Warning or Error of this tree whose found node has a resolved class declaration strictly above it; others are dropped |
| Processor.ClassHeaderDiagnostics | code-insight/CsParser/Processor.cs:223-228 | an error on a top-level class's own header is dropped; one on a nested class's header is credited to the outer class |
| Processor.CategoryRule | code-insight/CsParser/Processor.cs:219-221 | Security iff the id starts with SCS; Performance iff not and it starts with CA18 or CA19; Compiler otherwise |
| Processor.CategoryExamples | code-insight/CsParser/Processor.cs:219-221 | SCS0005 is Security; CA1822 and CA1900 are Performance; CA2000, CS0168 and CA1 are Compiler |
| Pipeline.DocumentOps | code-insight/CsParser/Program.cs:39-44 | a document without semantic model, syntax tree or root contributes nothing |
| Pipeline.ProjectOps | code-insight/CsParser/Program.cs:34-35 | a project without a compilation contributes nothing |
| Pipeline.ClassesInStage | code-insight/CsParser/Program.cs:46 | the class extractor emits only class facts and dependencies |
| Pipeline.RecordsInStage | code-insight/CsParser/Program.cs:47 | the record extractor emits only record nodes and dependencies |
| Pipeline.MethodsInStage | code-insight/CsParser/Program.cs:48 | the method extractor emits only method facts |
| Pipeline.CallsInStage | code-insight/CsParser/Program.cs:49 | the invocation extractor emits only call facts |
| Pipeline.DiagnosticsInStage | code-insight/CsParser/Program.cs:50 | the diagnostic extractor emits only issue facts |
| Pipeline.DocumentStageOrder | code-insight/CsParser/Program.cs:46-50 | a document's calls split into five consecutive runs, one per extractor in driver order, each holding only calls that extractor emits; dependency calls fall only in the class or record run, and each of those runs starts with its node call |
| Pipeline.SegmentedHead | code-insight/CsParser/Program.cs:46-50 | in a trace of that shape, the first call is never a dependency call |
| Pipeline.DependencyBeforeNodesExcluded | code-insight/CsParser/Program.cs:46-47 | a trace whose dependency call precedes every class and record node does not have that shape |
| Pipeline.FactsOnly | code-insight/CsParser/Program.cs:31-52 | the project loop makes no backup, clear or index call |
| Pipeline.RunShape | code-insight/CsParser/Program.cs:16-54 | without arguments the run is backup then clear; with them it is backup, clear, the facts, then the vector index |
| Pipeline.FactsOrigin | code-insight/CsParser/Program.cs:31-50 | every fact comes from a usable document of a project that compiles |
| Pipeline.RunStartsWithBackupAndClear | code-insight/CsParser/Program.cs:16-17 | backup first, clear second, and neither again |
| Pipeline.NoArgumentsOnlyClears | code-insight/CsParser/Program.cs:16-26 | the run is exactly backup then clear iff no argument is given |
| Pipeline.IndexCreatedOnceLast | code-insight/CsParser/Program.cs:22-54 | with an argument the index is created once, as the last call; without one, never |
| Pipeline.SkippedProjectsWriteNothing | code-insight/CsParser/Program.cs:34-44 | if every project lacks a compilation or usable documents, no fact is written |
| Pipeline.Execute | code-insight/CsParser/Program.cs:16-54 | after running calls in order, every relationship still joins existing nodes; without index creation the schema is unchanged |
| Pipeline.ExecuteKeepsNoDependsOn | code-insight/CsParser/GraphDbService.cs:37-189 | any sequence of calls keeps the graph free of named Records and DEPENDS_ON |
| Pipeline.HeadClears | code-insight/CsParser/Program.cs:16-17 | backup then clear leaves an empty graph with the schema found |
| Pipeline.RunStartsEmpty | code-insight/CsParser/Program.cs:16-17 | the database a run leaves does not depend on the nodes and relationships it found |
| Pipeline.RunLeavesNoDependsOn | code-insight/CsParser/Program.cs:16-54 | the database a run leaves has no DEPENDS_ON relationship |
| Pipeline.RunOnEmpty | code-insight/CsParser/Program.cs:46-54 | with an argument, a run on an empty graph equals the facts followed by index creation |
| Pipeline.RebuildIdempotent | code-insight/CsParser/Program.cs:16-54 | running the same extraction twice leaves the database exactly as running it once |

## Left out

- Roslyn and MSBuild are not modelled: syntax walking, `GetDeclaredSymbol`, `GetSymbolInfo`, `AnalyzeDataFlow`, `FindNode` and `ToDisplayString` are foreign calls. Their answers are inputs (`Semantics`), so display strings are taken as given.
- Opening a workspace or solution and locating MSBuild are left out; the model takes the solution as a value.
- The Neo4j driver, sessions, async execution and failures are left out; every call runs to completion in order.
- A Cypher MERGE may, under concurrent writers, create duplicates. The model is sequential, so this is out of scope.
- `LocalEmbedder` is an external model and is left out. Embedding is a function parameter, and only "the stored embedding is the embedding of the code" is stated.
- Backup's JSON serialisation, its temp-file name with a timestamp, and the file write are I/O. The model keeps only which rows the backup query returns (`PropertyGraph.Dump`); `Backup` does not change the graph.
- Console output is left out: the usage message, the per-call log lines and the god-class colour warning.
- Loading environment variables and constructing the driver are configuration, not logic, and are left out.
- `Processor.BranchOps`: the branch count is an unbounded integer; a 32-bit overflow would need more than two billion branches in one method.
- `Processor.Category`: `StartsWith` is modelled as an ordinal prefix test; .NET's default culture-sensitive comparison agrees on these ASCII prefixes.
- `GraphDb.CreateVectorIndexStep`: it does not model the index contents or vector search, only that the index exists with its configuration.
- `Pipeline.RebuildIdempotent` and `Pipeline.RunStartsEmpty`: they ignore the backup file, which differs per run because of its timestamp.
- The backend web demo, the React front end, the query stub and the earlier parser's driver are outside the extraction pipeline and are left out.

=== FILE: base.dfy ===
/** Small generic helpers shared by the whole model: an option type and a few facts about sequences. */
module Base {

  /** A value that may be missing: a C# reference that may be null. */
  datatype Option<+T> = None | Some(value: T)

  /** No element occurs twice. */
  predicate NoDup<T(==)>(s: seq<T>) {
    forall i, j :: 0 <= i < j < |s| ==> s[i] != s[j]
  }

  /** The elements of a sequence, as a set. */
  function Elems<T>(s: seq<T>): set<T> {
    set x | x in s
  }

  /** Ordinal prefix test, as `String.StartsWith` is used on diagnostic identifiers. */
  predicate StartsWith(s: string, prefix: string) {
    |prefix| <= |s| && s[..|prefix|] == prefix
  }

  /** The elements of `s` that satisfy `p`, in their original order. */
  function Filter<T>(s: seq<T>, p: T -> bool): (r: seq<T>)
    ensures |r| <= |s|
    ensures forall i :: 0 <= i < |r| ==> r[i] in s && p(r[i])
    ensures forall i :: 0 <= i < |s| && p(s[i]) ==> s[i] in r
  {
    if |s| == 0 then []
    else if p(s[0]) then [s[0]] + Filter(s[1..], p)
    else Filter(s[1..], p)
  }

  lemma {:induction false} FilterConcat<T>(a: seq<T>, b: seq<T>, p: T -> bool)
    ensures Filter(a + b, p) == Filter(a, p) + Filter(b, p)
  {
    if |a| == 0 {
      assert a + b == b;
    } else {
      assert (a + b)[1..] == a[1..] + b;
      FilterConcat(a[1..], b, p);
    }
  }

  lemma {:induction false} NoDupConcat<T>(a: seq<T>, b: seq<T>)
    requires NoDup(a) && NoDup(b)
    requires forall x :: x in a ==> x !in b
    ensures NoDup(a + b)
  {
    forall i, j | 0 <= i < j < |a + b|
      ensures (a + b)[i] != (a + b)[j]
    {
      if j < |a| {
      } else if i >= |a| {
        assert (a + b)[i] == b[i - |a|] && (a + b)[j] == b[j - |a|];
      } else {
        assert (a + b)[i] == a[i] && (a + b)[j] == b[j - |a|];
        assert (a + b)[j] in b;
      }
    }
  }

  /** A sequence without repetitions has as many distinct elements as positions. */
  lemma {:induction false} NoDupCard<T>(s: seq<T>)
    requires NoDup(s)
    ensures |Elems(s)| == |s|
  {
    if |s| > 0 {
      var t := s[1..];
      assert NoDup(t) by {
        forall i, j | 0 <= i < j < |t| ensures t[i] != t[j] {
          assert t[i] == s[i + 1] && t[j] == s[j + 1];
        }
      }
      NoDupCard(t);
      assert s[0] !in t by {
        forall k | 0 <= k < |t| ensures t[k] != s[0] {
          assert t[k] == s[k + 1];
        }
      }
      assert s == [s[0]] + t;
      assert Elems(s) == {s[0]} + Elems(t);
    }
  }

  /** When every element satisfies `p`, filtering keeps the whole sequence. */
  lemma {:induction false} FilterAll<T>(s: seq<T>, p: T -> bool)
    requires forall i :: 0 <= i < |s| ==> p(s[i])
    ensures Filter(s, p) == s
  {
    if |s| > 0 {
      FilterAll(s[1..], p);
    }
  }

  /** When no element satisfies `p`, filtering leaves nothing. */
  lemma FilterNone<T>(s: seq<T>, p: T -> bool)
    requires forall i :: 0 <= i < |s| ==> !p(s[i])
    ensures Filter(s, p) == []
  {
    var r := Filter(s, p);
    assert forall i :: 0 <= i < |r| ==> r[i] in s;
  }

  /** `SelectMany`: the concatenation of `f` over `s`, in order. */
  function FlatMap<T, U>(s: seq<T>, f: T -> seq<U>): (r: seq<U>)
    ensures forall j :: 0 <= j < |r| ==> exists i :: 0 <= i < |s| && r[j] in f(s[i])
    ensures forall i, k :: 0 <= i < |s| && 0 <= k < |f(s[i])| ==> f(s[i])[k] in r
  {
    if |s| == 0 then []
    else
      var rest := FlatMap(s[1..], f);
      assert forall i :: 1 <= i < |s| ==> s[i] == s[1..][i - 1];
      f(s[0]) + rest
  }

  /** A property of every element of every `f(x)` holds of every element of the concatenation. */
  lemma FlatMapAll<T, U>(s: seq<T>, f: T -> seq<U>, p: U -> bool)
    requires forall i, k :: 0 <= i < |s| && 0 <= k < |f(s[i])| ==> p(f(s[i])[k])
    ensures forall j :: 0 <= j < |FlatMap(s, f)| ==> p(FlatMap(s, f)[j])
  {
    var r := FlatMap(s, f);
    forall j | 0 <= j < |r| ensures p(r[j]) {
      var i :| 0 <= i < |s| && r[j] in f(s[i]);
      var k :| 0 <= k < |f(s[i])| && f(s[i])[k] == r[j];
    }
  }

  /** Filtering a sequence whose middle part alone satisfies `p` yields that part. */
  lemma FilterMiddle<T>(a: seq<T>, b: seq<T>, c: seq<T>, p: T -> bool)
    requires forall i :: 0 <= i < |a| ==> !p(a[i])
    requires forall i :: 0 <= i < |b| ==> p(b[i])
    requires forall i :: 0 <= i < |c| ==> !p(c[i])
    ensures Filter(a + b + c, p) == b
  {
    FilterNone(a, p);
    FilterAll(b, p);
    FilterNone(c, p);
    FilterConcat(a, b, p);
    FilterConcat(a + b, c, p);
  }
}

=== FILE: graph_db.dfy ===
/**
 * The graph service the extractor writes through (code-insight/CsParser/GraphDbService.cs):
 * each service call is one Cypher statement, modelled as a step on the abstract graph.
 *
 * Quirks of the statements, modelled as written:
 *  - Record nodes carry their name under the key `sname`, while `CreateDependency`
 *    looks its owner up as `Record {name: …}`, so it never finds a record created here.
 *  - `CreateDependency`, `CreateMethodCall` and `CreateDiagnosticIssue` MATCH their owner
 *    and therefore never create it; every other statement MERGEs both ends.
 */
module GraphDb {
  import opened PropertyGraph
  import Names

  /** The embedding model: text in, vector out. It is deterministic, so it is a plain function here. */
  type Embedder = string -> seq<real>

  /** One call on the service. */
  datatype Op =
    | Backup
    | ClearDatabase
    | CreateRecordNode(name: string, nameSpace: string, code: string, filePath: string)
    | CreateClassNode(name: string, nameSpace: string, code: string, filePath: string)
    | CreateDependency(recordName: string, typeName: string)
    | CreateAttributeUsage(className: string, attributeName: string)
    | CreateInheritance(className: string, baseTypeName: string)
    | CreateVariableRead(methodName: string, variableName: string, variableType: string)
    | CreateMethodCall(fromClass: string, methodName: string)
    | CreateBranchCondition(methodName: string, condition: string)
    | CreateExceptionHandler(methodName: string, exceptionType: string)
    | AddBranchingComplexity(methodName: string, branchCount: int)
    | CreateInterfaceImplementation(className: string, interfaceName: string)
    | CreateMethodReturnType(methodName: string, returnType: string)
    | CreateMethodParameter(methodName: string, paramType: string)
    | TagGodClass(fullName: string)
    | CreateDiagnosticIssue(className: string, diagnosticId: string, message: string, severity: string, category: string)
    | CreateVectorIndex

  /** `(:L {key: value})` */
  function Keyed(l: Label, key: string, value: string): Pattern {
    Pattern({l}, map[key := Str(value)])
  }

  /** `(:L {name: value})` */
  function NamePattern(l: Label, name: string): Pattern {
    Keyed(l, "name", name)
  }

  function VariablePattern(name: string, varType: string): Pattern {
    Pattern({Variable}, map["name" := Str(name), "type" := Str(varType)])
  }

  /** Diagnostic nodes are keyed by all four of their properties. */
  function DiagnosticPattern(id: string, message: string, severity: string, category: string): Pattern {
    Pattern({Diagnostic}, map["id" := Str(id), "message" := Str(message), "severity" := Str(severity), "category" := Str(category)])
  }

  /** The properties of a created Class or Record node; `key` is the property that holds the name. */
  function DeclarationProps(key: string, name: string, nameSpace: string, code: string, filePath: string, embed: Embedder): Props {
    map[key := Str(name), "shortName" := Str(Names.GetShortName(name)), "namespace" := Str(nameSpace),
        "code" := Str(code), "embedding" := Vector(embed(code)), "filePath" := Str(filePath)]
  }

  /** Name of the vector index and its configuration. */
  const ClassEmbeddingIndex := "class_embedding"
  const ClassEmbeddingSpec := VectorIndex(Class, "embedding", 384, "cosine")

  // ---- Statements with their own contracts ----

  /** `MATCH (n) DETACH DELETE n`. */
  function ClearDatabaseStep(g: Graph): (r: Graph)
    ensures r.nodes == [] && r.edges == {} && r.indexes == g.indexes
    ensures Valid(r)
  {
    DetachDeleteAll(g)
  }

  /** `CREATE (n:Record {sname: …})`: a new node every time, its name under `sname` and never under `name`. */
  function CreateRecordNodeStep(g: Graph, name: string, nameSpace: string, code: string, filePath: string, embed: Embedder): (r: Graph)
    ensures |r.nodes| == |g.nodes| + 1 && r.nodes[..|g.nodes|] == g.nodes
    ensures r.edges == g.edges && r.indexes == g.indexes
    ensures var n := r.nodes[|g.nodes|];
      && n.labels == {Record}
      && "sname" in n.props && n.props["sname"] == Str(name) && "name" !in n.props
      && "shortName" in n.props && n.props["shortName"] == Str(Names.GetShortName(name))
      && "embedding" in n.props && n.props["embedding"] == Vector(embed(code))
  {
    Create(g, Pattern({Record}, DeclarationProps("sname", name, nameSpace, code, filePath, embed)))
  }

  /** `CREATE (n:Class {name: …})`: a new node every time, even when one of that name exists. */
  function CreateClassNodeStep(g: Graph, name: string, nameSpace: string, code: string, filePath: string, embed: Embedder): (r: Graph)
    ensures |r.nodes| == |g.nodes| + 1 && r.nodes[..|g.nodes|] == g.nodes
    ensures r.edges == g.edges && r.indexes == g.indexes
    ensures MatchAll(r.nodes, NamePattern(Class, name)) == MatchAll(g.nodes, NamePattern(Class, name)) + {|g.nodes|}
    ensures var n := r.nodes[|g.nodes|];
      && n.labels == {Class}
      && "shortName" in n.props && n.props["shortName"] == Str(Names.GetShortName(name))
      && "embedding" in n.props && n.props["embedding"] == Vector(embed(code))
  {
    var p := Pattern({Class}, DeclarationProps("name", name, nameSpace, code, filePath, embed));
    var r := Create(g, p);
    MatchAllAppend(g.nodes, NodeOf(p), NamePattern(Class, name));
    r
  }

  /**
   * `MERGE (t:Type {name}) WITH t MATCH (r:Record {name}) MERGE (r)-[:DEPENDS_ON]->(t)`:
   * the Type node always exists afterwards, no Record is created, and edges come only from
   * Records that already existed.
   */
  function CreateDependencyStep(g: Graph, recordName: string, typeName: string): (r: Graph)
    ensures var owners := MatchAll(g.nodes, NamePattern(Record, recordName));
      && MatchAll(r.nodes, NamePattern(Type, typeName)) != {}
      && MatchAll(r.nodes, NamePattern(Record, recordName)) == owners
      && g.nodes <= r.nodes && |r.nodes| <= |g.nodes| + 1
      && (forall i :: |g.nodes| <= i < |r.nodes| ==> r.nodes[i] == NodeOf(NamePattern(Type, typeName)))
      && r.edges == g.edges + Pairs(owners, DependsOn, MatchAll(r.nodes, NamePattern(Type, typeName)))
      && r.indexes == g.indexes
  {
    MergeMatchLinkEffect(g, NamePattern(Type, typeName), NamePattern(Record, recordName), DependsOn);
    MergeMatchLink(g, NamePattern(Type, typeName), NamePattern(Record, recordName), DependsOn)
  }

  /**
   * `MERGE (m:Method {name}) WITH m MATCH (c:Class {name: fromClass}) MERGE (c)-[:CALLS]->(m)`:
   * the Method node always exists afterwards; the edge only from Class nodes that already existed.
   */
  function CreateMethodCallStep(g: Graph, fromClass: string, methodName: string): (r: Graph)
    ensures var owners := MatchAll(g.nodes, NamePattern(Class, fromClass));
      && MatchAll(r.nodes, NamePattern(Method, methodName)) != {}
      && MatchAll(r.nodes, NamePattern(Class, fromClass)) == owners
      && g.nodes <= r.nodes && |r.nodes| <= |g.nodes| + 1
      && (forall i :: |g.nodes| <= i < |r.nodes| ==> r.nodes[i] == NodeOf(NamePattern(Method, methodName)))
      && r.edges == g.edges + Pairs(owners, Calls, MatchAll(r.nodes, NamePattern(Method, methodName)))
      && r.indexes == g.indexes
  {
    MergeMatchLinkEffect(g, NamePattern(Method, methodName), NamePattern(Class, fromClass), Calls);
    MergeMatchLink(g, NamePattern(Method, methodName), NamePattern(Class, fromClass), Calls)
  }

  /**
   * `MERGE (d:Diagnostic {id, message, severity, category}) WITH d MATCH (c:Class {name}) MERGE (c)-[:HAS_ISSUE]->(d)`:
   * the Diagnostic node always exists afterwards; the edge only from Class nodes that already existed.
   */
  function CreateDiagnosticIssueStep(g: Graph, className: string, id: string, message: string, severity: string, category: string): (r: Graph)
    ensures var d := DiagnosticPattern(id, message, severity, category);
      var owners := MatchAll(g.nodes, NamePattern(Class, className));
      && MatchAll(r.nodes, d) != {}
      && MatchAll(r.nodes, NamePattern(Class, className)) == owners
      && g.nodes <= r.nodes && |r.nodes| <= |g.nodes| + 1
      && (forall i :: |g.nodes| <= i < |r.nodes| ==> r.nodes[i] == NodeOf(d))
      && r.edges == g.edges + Pairs(owners, HasIssue, MatchAll(r.nodes, d))
      && r.indexes == g.indexes
  {
    var d := DiagnosticPattern(id, message, severity, category);
    MergeMatchLinkEffect(g, d, NamePattern(Class, className), HasIssue);
    MergeMatchLink(g, d, NamePattern(Class, className), HasIssue)
  }

  /** `MATCH (m:Method {name}) SET m.branchCount = …`: no Method of that name, no change. */
  function AddBranchingComplexityStep(g: Graph, methodName: string, branchCount: int): (r: Graph)
    ensures MatchAll(g.nodes, NamePattern(Method, methodName)) == {} ==> r == g
    ensures |r.nodes| == |g.nodes| && r.edges == g.edges && r.indexes == g.indexes
    ensures forall i :: i in MatchAll(g.nodes, NamePattern(Method, methodName)) ==>
              r.nodes[i].labels == g.nodes[i].labels
              && r.nodes[i].props == g.nodes[i].props["branchCount" := Int(branchCount)]
    ensures forall i :: 0 <= i < |g.nodes| && i !in MatchAll(g.nodes, NamePattern(Method, methodName)) ==>
              r.nodes[i] == g.nodes[i]
  {
    var r := SetProp(g, NamePattern(Method, methodName), "branchCount", Int(branchCount));
    assert MatchAll(g.nodes, NamePattern(Method, methodName)) == {} ==> r.nodes == g.nodes;
    r
  }

  /** `MATCH (c {name}) SET c:GodClass`: nodes of any label with that `name` gain the label; nothing else changes. */
  function TagGodClassStep(g: Graph, fullName: string): (r: Graph)
    ensures |r.nodes| == |g.nodes| && r.edges == g.edges && r.indexes == g.indexes
    ensures forall i :: 0 <= i < |g.nodes| ==>
              r.nodes[i].props == g.nodes[i].props
              && r.nodes[i].labels == g.nodes[i].labels
                   + (if "name" in g.nodes[i].props && g.nodes[i].props["name"] == Str(fullName) then {GodClass} else {})
  {
    AddLabel(g, Pattern({}, map["name" := Str(fullName)]), GodClass)
  }

  /** `CREATE VECTOR INDEX class_embedding IF NOT EXISTS FOR (c:Class) ON c.embedding` with 384 dimensions, cosine. */
  function CreateVectorIndexStep(g: Graph): (r: Graph)
    ensures ClassEmbeddingIndex in r.indexes
    ensures ClassEmbeddingIndex in g.indexes ==> r == g
    ensures ClassEmbeddingIndex !in g.indexes ==>
              r.indexes[ClassEmbeddingIndex] == VectorIndex(Class, "embedding", 384, "cosine")
    ensures r.nodes == g.nodes && r.edges == g.edges
  {
    CreateIndexIfNotExists(g, ClassEmbeddingIndex, ClassEmbeddingSpec)
  }

  // ---- The eight MERGE-only statements ----

  /** The statements that MERGE both ends and the relationship between them. */
  predicate IsPureMerge(op: Op) {
    || op.CreateAttributeUsage? || op.CreateInheritance? || op.CreateVariableRead?
    || op.CreateBranchCondition? || op.CreateExceptionHandler? || op.CreateInterfaceImplementation?
    || op.CreateMethodReturnType? || op.CreateMethodParameter?
  }

  /** A MERGE-only statement: the two patterns in statement order, the relationship, and its direction. */
  datatype MergeShape = MergeShape(first: Pattern, second: Pattern, rel: Rel, forward: bool)

  function ShapeOf(op: Op): MergeShape
    requires IsPureMerge(op)
  {
    match op
    case CreateAttributeUsage(c, a) => MergeShape(NamePattern(Attribute, a), NamePattern(Class, c), HasAttribute, false)
    case CreateInheritance(c, b) => MergeShape(NamePattern(Class, c), NamePattern(Type, b), Inherits, true)
    case CreateVariableRead(m, v, t) => MergeShape(NamePattern(Method, m), VariablePattern(v, t), ReadsVariable, true)
    case CreateBranchCondition(m, c) => MergeShape(NamePattern(Method, m), Keyed(Condition, "expression", c), HasCondition, true)
    case CreateExceptionHandler(m, e) => MergeShape(NamePattern(Method, m), NamePattern(Exception, e), Catches, true)
    case CreateInterfaceImplementation(c, i) => MergeShape(NamePattern(Interface, i), NamePattern(Class, c), Implements, false)
    case CreateMethodReturnType(m, t) => MergeShape(NamePattern(Method, m), NamePattern(Type, t), Returns, true)
    case CreateMethodParameter(m, t) => MergeShape(NamePattern(Method, m), NamePattern(Type, t), HasParameter, true)
  }

  /** The two patterns of every MERGE-only statement carry different labels. */
  lemma ShapeLabelsDistinct(op: Op)
    requires IsPureMerge(op)
    ensures !Matches(NodeOf(ShapeOf(op).second), ShapeOf(op).first)
    ensures !Matches(NodeOf(ShapeOf(op).first), ShapeOf(op).second)
  {
  }

  /**
   * A MERGE-only statement leaves both of its nodes in the graph, adds no other node, and adds
   * the relationship between every node matching one end and every node matching the other.
   */
  function MergeStep(g: Graph, op: Op): (r: Graph)
    requires IsPureMerge(op)
    ensures var s := ShapeOf(op);
      && MatchAll(r.nodes, s.first) != {} && MatchAll(r.nodes, s.second) != {}
      && g.nodes <= r.nodes && |r.nodes| <= |g.nodes| + 2
      && (forall i :: |g.nodes| <= i < |r.nodes| ==> r.nodes[i] == NodeOf(s.first) || r.nodes[i] == NodeOf(s.second))
      && r.edges == g.edges + (if s.forward then Pairs(MatchAll(r.nodes, s.first), s.rel, MatchAll(r.nodes, s.second))
                               else Pairs(MatchAll(r.nodes, s.second), s.rel, MatchAll(r.nodes, s.first)))
      && r.indexes == g.indexes
  {
    var s := ShapeOf(op);
    ShapeLabelsDistinct(op);
    MergeMergeLinkEffect(g, s.first, s.second, s.rel, s.forward);
    MergeMergeLink(g, s.first, s.second, s.rel, s.forward)
  }

  // ---- Running a call ----

  /** The effect of one service call on the graph. `Backup` only reads (see `Dump`). */
  function Apply(g: Graph, op: Op, embed: Embedder): (r: Graph)
    ensures Valid(g) ==> Valid(r)
    ensures !op.CreateVectorIndex? ==> r.indexes == g.indexes
  {
    match op
    case Backup => g
    case ClearDatabase => ClearDatabaseStep(g)
    case CreateRecordNode(n, ns, c, f) => CreateRecordNodeStep(g, n, ns, c, f, embed)
    case CreateClassNode(n, ns, c, f) => CreateClassNodeStep(g, n, ns, c, f, embed)
    case CreateDependency(o, t) => CreateDependencyStep(g, o, t)
    case CreateMethodCall(c, m) => CreateMethodCallStep(g, c, m)
    case AddBranchingComplexity(m, k) => AddBranchingComplexityStep(g, m, k)
    case TagGodClass(n) => TagGodClassStep(g, n)
    case CreateDiagnosticIssue(c, i, m, s, k) => CreateDiagnosticIssueStep(g, c, i, m, s, k)
    case CreateVectorIndex => CreateVectorIndexStep(g)
    case _ => MergeStep(g, op)
  }

  // ---- Properties of calls ----

  /** Every MERGE-only statement is idempotent: a second identical call leaves the graph as the first left it. */
  lemma PureMergeIdempotent(g: Graph, op: Op, embed: Embedder)
    requires IsPureMerge(op)
    ensures Apply(Apply(g, op, embed), op, embed) == Apply(g, op, embed)
  {
    var s := ShapeOf(op);
    ShapeLabelsDistinct(op);
    MergeMergeLinkIdempotent(g, s.first, s.second, s.rel, s.forward);
  }

  /** The statements that MATCH their owner are idempotent too. */
  lemma OwnerMatchIdempotent(g: Graph, op: Op, embed: Embedder)
    requires op.CreateDependency? || op.CreateMethodCall? || op.CreateDiagnosticIssue?
    ensures Apply(Apply(g, op, embed), op, embed) == Apply(g, op, embed)
  {
    match op
    case CreateDependency(o, t) => MergeMatchLinkIdempotent(g, NamePattern(Type, t), NamePattern(Record, o), DependsOn);
    case CreateMethodCall(c, m) => MergeMatchLinkIdempotent(g, NamePattern(Method, m), NamePattern(Class, c), Calls);
    case CreateDiagnosticIssue(c, i, m, s, k) => MergeMatchLinkIdempotent(g, DiagnosticPattern(i, m, s, k), NamePattern(Class, c), HasIssue);
  }

  /** Creating the same class twice yields two distinct nodes of that name. */
  lemma ClassCreatedTwice(g: Graph, name: string, nameSpace: string, code: string, filePath: string, embed: Embedder)
    ensures var op := CreateClassNode(name, nameSpace, code, filePath);
      var r := Apply(Apply(g, op, embed), op, embed);
      && |r.nodes| == |g.nodes| + 2
      && MatchAll(r.nodes, NamePattern(Class, name)) == MatchAll(g.nodes, NamePattern(Class, name)) + {|g.nodes|, |g.nodes| + 1}
  {
  }

  /** Creating the same record twice yields two nodes carrying that `sname`. */
  lemma RecordCreatedTwice(g: Graph, name: string, nameSpace: string, code: string, filePath: string, embed: Embedder)
    ensures var op := CreateRecordNode(name, nameSpace, code, filePath);
      var r := Apply(Apply(g, op, embed), op, embed);
      && |r.nodes| == |g.nodes| + 2
      && r.nodes[|g.nodes|] == r.nodes[|g.nodes| + 1]
      && r.nodes[|g.nodes|].props["sname"] == Str(name)
  {
    var op := CreateRecordNode(name, nameSpace, code, filePath);
    var g1 := Apply(g, op, embed);
    var r := Apply(g1, op, embed);
    assert r.nodes[..|g1.nodes|] == g1.nodes;
    assert r.nodes[|g.nodes|] == g1.nodes[|g.nodes|];
  }

  /**
   * A record created by this service is stored under `sname`, so a dependency declared for it
   * creates the Type node but no DEPENDS_ON edge out of the record.
   */
  lemma RecordGetsNoDependencyEdge(g: Graph, name: string, nameSpace: string, code: string, filePath: string,
                                   typeName: string, embed: Embedder)
    requires Valid(g)
    ensures var g1 := Apply(g, CreateRecordNode(name, nameSpace, code, filePath), embed);
      var r := Apply(g1, CreateDependency(name, typeName), embed);
      && MatchAll(r.nodes, NamePattern(Type, typeName)) != {}
      && forall e :: e in r.edges ==> e.src != |g.nodes|
  {
    var g1 := Apply(g, CreateRecordNode(name, nameSpace, code, filePath), embed);
    assert |g.nodes| !in MatchAll(g1.nodes, NamePattern(Record, name));
  }

  /** Two branch counts for the same method: the second overwrites the first. */
  lemma BranchCountLastWriteWins(g: Graph, methodName: string, k1: int, k2: int, embed: Embedder)
    ensures Apply(Apply(g, AddBranchingComplexity(methodName, k1), embed), AddBranchingComplexity(methodName, k2), embed)
         == Apply(g, AddBranchingComplexity(methodName, k2), embed)
  {
    SetPropLastWriteWins(g, NamePattern(Method, methodName), "branchCount", Int(k1), Int(k2));
  }

  /** Tagging a god class twice is the same as tagging it once. */
  lemma TagGodClassIdempotent(g: Graph, fullName: string, embed: Embedder)
    ensures Apply(Apply(g, TagGodClass(fullName), embed), TagGodClass(fullName), embed)
         == Apply(g, TagGodClass(fullName), embed)
  {
    var a := Apply(g, TagGodClass(fullName), embed);
    var b := Apply(a, TagGodClass(fullName), embed);
    forall i | 0 <= i < |g.nodes| ensures b.nodes[i] == a.nodes[i] {
    }
  }

  /** A Diagnostic node matches another diagnostic's key only when all four properties agree. */
  lemma DiagnosticKeyIsWholeTuple(id1: string, m1: string, s1: string, c1: string,
                                  id2: string, m2: string, s2: string, c2: string)
    ensures Matches(NodeOf(DiagnosticPattern(id1, m1, s1, c1)), DiagnosticPattern(id2, m2, s2, c2))
        <==> id1 == id2 && m1 == m2 && s1 == s2 && c1 == c2
  {
    var p := DiagnosticPattern(id2, m2, s2, c2);
    var n := NodeOf(DiagnosticPattern(id1, m1, s1, c1));
    if Matches(n, p) {
      assert n.props["id"] == p.props["id"];
      assert n.props["message"] == p.props["message"];
      assert n.props["severity"] == p.props["severity"];
      assert n.props["category"] == p.props["category"];
    }
  }

  /** Two issues with the same (id, message, severity, category) share one node: the second creates none. */
  lemma DiagnosticSharedByTuple(g: Graph, c1: string, c2: string, id: string, message: string, severity: string,
                                category: string, embed: Embedder)
    ensures var g1 := Apply(g, CreateDiagnosticIssue(c1, id, message, severity, category), embed);
      var g2 := Apply(g1, CreateDiagnosticIssue(c2, id, message, severity, category), embed);
      && g2.nodes == g1.nodes
      && MatchAll(g2.nodes, DiagnosticPattern(id, message, severity, category))
         == MatchAll(g1.nodes, DiagnosticPattern(id, message, severity, category))
  {
  }

  /** Repeating the index creation leaves the graph unchanged. */
  lemma VectorIndexIdempotent(g: Graph, embed: Embedder)
    ensures Apply(Apply(g, CreateVectorIndex, embed), CreateVectorIndex, embed) == Apply(g, CreateVectorIndex, embed)
  {
  }

  /** No call other than the index creation reads or writes the schema. */
  lemma ApplyIgnoresSchema(g: Graph, op: Op, embed: Embedder, ix: map<string, VectorIndex>)
    requires !op.CreateVectorIndex?
    ensures Apply(g.(indexes := ix), op, embed) == Apply(g, op, embed).(indexes := ix)
  {
    if IsPureMerge(op) {
      MergeIgnoresSchema(g, op, ix);
    } else if op.CreateDependency? || op.CreateMethodCall? || op.CreateDiagnosticIssue? {
      OwnerLinkIgnoresSchema(g, op, embed, ix);
    } else if op.CreateRecordNode? || op.CreateClassNode? {
      NodeCreationIgnoresSchema(g, op, embed, ix);
    }
  }

  lemma MergeIgnoresSchema(g: Graph, op: Op, ix: map<string, VectorIndex>)
    requires IsPureMerge(op)
    ensures MergeStep(g.(indexes := ix), op) == MergeStep(g, op).(indexes := ix)
  {
    var s := ShapeOf(op);
    MergeMergeLinkIgnoresSchema(g, s.first, s.second, s.rel, s.forward, ix);
  }

  lemma OwnerLinkIgnoresSchema(g: Graph, op: Op, embed: Embedder, ix: map<string, VectorIndex>)
    requires op.CreateDependency? || op.CreateMethodCall? || op.CreateDiagnosticIssue?
    ensures Apply(g.(indexes := ix), op, embed) == Apply(g, op, embed).(indexes := ix)
  {
  }

  lemma NodeCreationIgnoresSchema(g: Graph, op: Op, embed: Embedder, ix: map<string, VectorIndex>)
    requires op.CreateRecordNode? || op.CreateClassNode?
    ensures Apply(g.(indexes := ix), op, embed) == Apply(g, op, embed).(indexes := ix)
  {
  }

  // ---- Records are never found as dependency owners ----

  /**
   * No record carries a `name` property and no DEPENDS_ON relationship exists. Every call
   * keeps this, so a graph built by this service never holds a DEPENDS_ON relationship.
   */
  predicate NoDependsOn(g: Graph) {
    && (forall i :: 0 <= i < |g.nodes| && Record in g.nodes[i].labels ==> "name" !in g.nodes[i].props)
    && (forall e :: e in g.edges ==> e.rel != DependsOn)
  }

  /** A graph that only gains nodes at the end, none of them a named Record, and no DEPENDS_ON relationship keeps the property. */
  lemma ExtensionKeepsNoDependsOn(g: Graph, r: Graph)
    requires NoDependsOn(g)
    requires g.nodes <= r.nodes
    requires forall i :: |g.nodes| <= i < |r.nodes| && Record in r.nodes[i].labels ==> "name" !in r.nodes[i].props
    requires forall e :: e in r.edges && e !in g.edges ==> e.rel != DependsOn
    ensures NoDependsOn(r)
  {
    forall i | 0 <= i < |r.nodes| && Record in r.nodes[i].labels ensures "name" !in r.nodes[i].props {
      if i < |g.nodes| {
        assert r.nodes[i] == g.nodes[i];
      }
    }
  }

  /** Without a named Record, the dependency statement finds no owner and adds no relationship. */
  lemma DependencyKeepsNoDependsOn(g: Graph, recordName: string, typeName: string)
    requires NoDependsOn(g)
    ensures NoDependsOn(CreateDependencyStep(g, recordName, typeName))
  {
    var r := CreateDependencyStep(g, recordName, typeName);
    assert MatchAll(g.nodes, NamePattern(Record, recordName)) == {};
    assert Pairs({}, DependsOn, MatchAll(r.nodes, NamePattern(Type, typeName))) == {};
    ExtensionKeepsNoDependsOn(g, r);
  }

  /** No MERGE-only statement involves a Record or a DEPENDS_ON relationship. */
  lemma ShapeAvoidsRecords(op: Op)
    requires IsPureMerge(op)
    ensures Record !in NodeOf(ShapeOf(op).first).labels && Record !in NodeOf(ShapeOf(op).second).labels
    ensures ShapeOf(op).rel != DependsOn
  {
  }

  /** The calls that only append nodes and relationships other than DEPENDS_ON keep `NoDependsOn`. */
  lemma MergeKeepsNoDependsOn(g: Graph, op: Op)
    requires NoDependsOn(g) && IsPureMerge(op)
    ensures NoDependsOn(MergeStep(g, op))
  {
    ShapeAvoidsRecords(op);
    ExtensionKeepsNoDependsOn(g, MergeStep(g, op));
  }

  lemma MethodCallKeepsNoDependsOn(g: Graph, fromClass: string, methodName: string)
    requires NoDependsOn(g)
    ensures NoDependsOn(CreateMethodCallStep(g, fromClass, methodName))
  {
    ExtensionKeepsNoDependsOn(g, CreateMethodCallStep(g, fromClass, methodName));
  }

  lemma DiagnosticKeepsNoDependsOn(g: Graph, className: string, id: string, message: string, severity: string, category: string)
    requires NoDependsOn(g)
    ensures NoDependsOn(CreateDiagnosticIssueStep(g, className, id, message, severity, category))
  {
    ExtensionKeepsNoDependsOn(g, CreateDiagnosticIssueStep(g, className, id, message, severity, category));
  }

  lemma NodeCreationKeepsNoDependsOn(g: Graph, name: string, nameSpace: string, code: string, filePath: string, embed: Embedder)
    requires NoDependsOn(g)
    ensures NoDependsOn(CreateRecordNodeStep(g, name, nameSpace, code, filePath, embed))
    ensures NoDependsOn(CreateClassNodeStep(g, name, nameSpace, code, filePath, embed))
  {
    ExtensionKeepsNoDependsOn(g, CreateRecordNodeStep(g, name, nameSpace, code, filePath, embed));
    ExtensionKeepsNoDependsOn(g, CreateClassNodeStep(g, name, nameSpace, code, filePath, embed));
  }

  /** Setting a branch count touches only Method nodes that carry a `name`, which are therefore no Records. */
  lemma BranchCountKeepsNoDependsOn(g: Graph, methodName: string, branchCount: int)
    requires NoDependsOn(g)
    ensures NoDependsOn(AddBranchingComplexityStep(g, methodName, branchCount))
  {
  }

  /** Tagging adds the GodClass label only. */
  lemma TagKeepsNoDependsOn(g: Graph, fullName: string)
    requires NoDependsOn(g)
    ensures NoDependsOn(TagGodClassStep(g, fullName))
  {
  }

  /** Every call keeps `NoDependsOn`. */
  lemma ApplyKeepsNoDependsOn(g: Graph, op: Op, embed: Embedder)
    requires NoDependsOn(g)
    ensures NoDependsOn(Apply(g, op, embed))
  {
    if op.CreateDependency? {
      DependencyKeepsNoDependsOn(g, op.recordName, op.typeName);
    } else if op.CreateMethodCall? {
      MethodCallKeepsNoDependsOn(g, op.fromClass, op.methodName);
    } else if op.CreateDiagnosticIssue? {
      DiagnosticKeepsNoDependsOn(g, op.className, op.diagnosticId, op.message, op.severity, op.category);
    } else if op.CreateRecordNode? || op.CreateClassNode? {
      NodeCreationKeepsNoDependsOn(g, op.name, op.nameSpace, op.code, op.filePath, embed);
    } else if op.AddBranchingComplexity? {
      BranchCountKeepsNoDependsOn(g, op.methodName, op.branchCount);
    } else if op.TagGodClass? {
      TagKeepsNoDependsOn(g, op.fullName);
    } else if IsPureMerge(op) {
      MergeKeepsNoDependsOn(g, op);
    }
  }
}

=== FILE: legacy_graph_db.dfy ===
/**
 * The earlier graph service (parser/CsParser/GraphDbService.cs): plain Class and Record nodes
 * without embeddings, and the same dependency statement as the later service. Here records are
 * stored under `name`, so the dependency statement finds them.
 */
module LegacyGraphDb {
  import opened PropertyGraph
  import GraphDb

  /** `MATCH (n) DETACH DELETE n`: no node and no relationship is left. */
  function ClearDatabase(g: Graph): (r: Graph)
    ensures r.nodes == [] && r.edges == {}
    ensures Dump(r) == {}
  {
    DetachDeleteAll(g)
  }

  function DeclarationProps(name: string, nameSpace: string, code: string): Props {
    map["name" := Str(name), "namespace" := Str(nameSpace), "code" := Str(code)]
  }

  /** `CREATE (n:Record {name, namespace, code})`: a new node every time, found afterwards as `Record {name}`. */
  function CreateRecordNode(g: Graph, name: string, nameSpace: string, code: string): (r: Graph)
    ensures |r.nodes| == |g.nodes| + 1 && r.nodes[..|g.nodes|] == g.nodes
    ensures r.edges == g.edges && r.indexes == g.indexes
    ensures MatchAll(r.nodes, GraphDb.NamePattern(Record, name)) == MatchAll(g.nodes, GraphDb.NamePattern(Record, name)) + {|g.nodes|}
    ensures r.nodes[|g.nodes|].labels == {Record}
  {
    var p := Pattern({Record}, DeclarationProps(name, nameSpace, code));
    MatchAllAppend(g.nodes, NodeOf(p), GraphDb.NamePattern(Record, name));
    Create(g, p)
  }

  /** `CREATE (n:Class {name, namespace, code})`: a new node every time, found afterwards as `Class {name}`. */
  function CreateClassNode(g: Graph, name: string, nameSpace: string, code: string): (r: Graph)
    ensures |r.nodes| == |g.nodes| + 1 && r.nodes[..|g.nodes|] == g.nodes
    ensures r.edges == g.edges && r.indexes == g.indexes
    ensures MatchAll(r.nodes, GraphDb.NamePattern(Class, name)) == MatchAll(g.nodes, GraphDb.NamePattern(Class, name)) + {|g.nodes|}
    ensures r.nodes[|g.nodes|].labels == {Class}
  {
    var p := Pattern({Class}, DeclarationProps(name, nameSpace, code));
    MatchAllAppend(g.nodes, NodeOf(p), GraphDb.NamePattern(Class, name));
    Create(g, p)
  }

  /**
   * `MERGE (t:Type {name}) WITH t MATCH (r:Record {name}) MERGE (r)-[:DEPENDS_ON]->(t)`.
   * The Type node always exists afterwards; existing nodes are untouched and the only node it may
   * add is the Type node; the new edges go from the Records that existed to the Type node.
   */
  function CreateDependency(g: Graph, recordName: string, typeName: string): (r: Graph)
    ensures MatchAll(r.nodes, GraphDb.NamePattern(Type, typeName)) != {}
    ensures g.nodes <= r.nodes && |r.nodes| <= |g.nodes| + 1
    ensures forall i :: |g.nodes| <= i < |r.nodes| ==> r.nodes[i].labels == {Type}
    ensures r.edges == g.edges + Pairs(MatchAll(g.nodes, GraphDb.NamePattern(Record, recordName)), DependsOn,
                                       MatchAll(r.nodes, GraphDb.NamePattern(Type, typeName)))
    ensures r.indexes == g.indexes
  {
    MergeMatchLinkEffect(g, GraphDb.NamePattern(Type, typeName), GraphDb.NamePattern(Record, recordName), DependsOn);
    MergeMatchLink(g, GraphDb.NamePattern(Type, typeName), GraphDb.NamePattern(Record, recordName), DependsOn)
  }

  /** A DEPENDS_ON edge from a Record of that name to the Type exists afterwards iff such a Record existed. */
  lemma DependencyEdgeIffRecordExists(g: Graph, recordName: string, typeName: string)
    ensures var r := CreateDependency(g, recordName, typeName);
      var owners := MatchAll(r.nodes, GraphDb.NamePattern(Record, recordName));
      (exists o, t :: Edge(o, DependsOn, t) in r.edges && o in owners && t in MatchAll(r.nodes, GraphDb.NamePattern(Type, typeName)))
      <==> MatchAll(g.nodes, GraphDb.NamePattern(Record, recordName)) != {}
  {
    var owner := GraphDb.NamePattern(Record, recordName);
    var target := GraphDb.NamePattern(Type, typeName);
    MergeMatchLinkEffect(g, target, owner, DependsOn);
    var r := CreateDependency(g, recordName, typeName);
    if MatchAll(g.nodes, owner) != {} {
      var o :| o in MatchAll(g.nodes, owner);
      var t :| t in MatchAll(r.nodes, target);
      assert Edge(o, DependsOn, t) in Pairs(MatchAll(g.nodes, owner), DependsOn, MatchAll(r.nodes, target));
    }
  }

  /** A record created by this service is found by the dependency statement: the edge leaves the new record. */
  lemma CreatedRecordGetsDependency(g: Graph, name: string, nameSpace: string, code: string, typeName: string)
    ensures var g1 := CreateRecordNode(g, name, nameSpace, code);
      var r := CreateDependency(g1, name, typeName);
      exists t :: Edge(|g.nodes|, DependsOn, t) in r.edges && t in MatchAll(r.nodes, GraphDb.NamePattern(Type, typeName))
  {
    var g1 := CreateRecordNode(g, name, nameSpace, code);
    var owner := GraphDb.NamePattern(Record, name);
    var target := GraphDb.NamePattern(Type, typeName);
    MergeMatchLinkEffect(g1, target, owner, DependsOn);
    var r := CreateDependency(g1, name, typeName);
    var t :| t in MatchAll(r.nodes, target);
    assert |g.nodes| in MatchAll(g1.nodes, owner);
    assert Edge(|g.nodes|, DependsOn, t) in Pairs(MatchAll(g1.nodes, owner), DependsOn, MatchAll(r.nodes, target));
  }

  /** The dependency statement is idempotent. */
  lemma DependencyIdempotent(g: Graph, recordName: string, typeName: string)
    ensures CreateDependency(CreateDependency(g, recordName, typeName), recordName, typeName)
         == CreateDependency(g, recordName, typeName)
  {
    MergeMatchLinkIdempotent(g, GraphDb.NamePattern(Type, typeName), GraphDb.NamePattern(Record, recordName), DependsOn);
  }

  /** The dependency statement never creates or alters a Class or Record node. */
  lemma DependencyKeepsDeclarations(g: Graph, recordName: string, typeName: string, l: Label)
    requires l == Class || l == Record
    ensures var r := CreateDependency(g, recordName, typeName);
      forall i :: 0 <= i < |r.nodes| && l in r.nodes[i].labels ==> i < |g.nodes| && r.nodes[i] == g.nodes[i]
  {
  }
}

=== FILE: names.dfy ===
/** `Utils.GetShortName`: the last segment of a dotted name. */
module Names {

  /** `String.LastIndexOf(char)`: the last position holding `c`, or -1 when `c` does not occur. */
  function LastIndexOf(s: string, c: char): (i: int)
    ensures -1 <= i < |s|
    ensures i >= 0 ==> s[i] == c
    ensures forall j :: i < j < |s| ==> s[j] != c
  {
    if |s| == 0 then -1
    else if s[|s| - 1] == c then |s| - 1
    else LastIndexOf(s[..|s| - 1], c)
  }

  /**
   * The part of `fullName` after its last '.', or `fullName` itself when it has no '.'.
   * Equivalently: the longest suffix free of '.'.
   */
  function GetShortName(fullName: string): (r: string)
    ensures '.' !in r
    ensures |r| <= |fullName| && fullName[|fullName| - |r|..] == r
    ensures |r| == |fullName| || fullName[|fullName| - |r| - 1] == '.'
  {
    if '.' in fullName then fullName[LastIndexOf(fullName, '.') + 1..] else fullName
  }

  /** The three properties above pin the short name down: no other string has them. */
  lemma ShortNameUnique(s: string, r: string)
    requires '.' !in r
    requires |r| <= |s| && s[|s| - |r|..] == r
    requires |r| == |s| || s[|s| - |r| - 1] == '.'
    ensures r == GetShortName(s)
  {
    var q := GetShortName(s);
    assert |r| == |q|;
  }

  lemma ShortNameOfUndotted(s: string)
    requires '.' !in s
    ensures GetShortName(s) == s
  {
    ShortNameUnique(s, s);
  }

  /** When a '.' occurs, the short name is exactly what follows some '.' with no '.' after it. */
  lemma ShortNameAfterLastDot(s: string)
    requires '.' in s
    ensures exists k :: 0 <= k < |s| && s[k] == '.' && GetShortName(s) == s[k + 1..]
                       && forall j :: k < j < |s| ==> s[j] != '.'
  {
    var r := GetShortName(s);
    var k := |s| - |r| - 1;
    assert |r| != |s|;
    assert s[k] == '.';
    assert s[k + 1..] == r;
    forall j | k < j < |s| ensures s[j] != '.' {
      assert s[j] == r[j - k - 1];
    }
  }

  lemma ShortNameIdempotent(s: string)
    ensures GetShortName(GetShortName(s)) == GetShortName(s)
  {
    ShortNameOfUndotted(GetShortName(s));
  }

  lemma ShortNameOfTrailingDot(s: string)
    requires |s| > 0 && s[|s| - 1] == '.'
    ensures GetShortName(s) == ""
  {
  }
}

=== FILE: pipeline.dfy ===
/**
 * The driver (code-insight/CsParser/Program.cs): back up and clear the database, then, when a
 * solution path is given, run the five extractors over every usable document of every project
 * that compiles, and finally create the vector index. The run is modelled as the sequence of
 * service calls it makes; executing that sequence on a graph gives the database afterwards.
 */
module Pipeline {
  import opened Base
  import opened Semantics
  import PropertyGraph
  import GraphDb
  import Processor

  type Op = GraphDb.Op
  type Graph = PropertyGraph.Graph

  /** The declarations of one syntax root, as the extractors find them. */
  datatype Root = Root(classes: seq<ClassDecl>, records: seq<RecordDecl>, methods: seq<MethodDecl>,
                       invocations: seq<Invocation>)

  /**
   * A document: its file path, its syntax tree (by identity), whether a semantic model is available,
   * and its syntax root when the tree yields one.
   */
  datatype Document = Document(filePath: Option<string>, syntaxTree: Option<nat>, hasSemanticModel: bool,
                               root: Option<Root>)

  /** A project; `compilation` holds the compilation's diagnostics, `None` when there is no compilation. */
  datatype Project = Project(name: string, compilation: Option<seq<DiagnosticInfo>>, documents: seq<Document>)

  /** The solution opened from the path given on the command line. */
  datatype Solution = Solution(projects: seq<Project>)

  /** A document is processed only with a semantic model, a syntax tree and a root. */
  predicate Usable(d: Document) {
    d.hasSemanticModel && d.syntaxTree.Some? && d.root.Some?
  }

  /** The calls that write extracted facts, as opposed to the whole-database calls. */
  predicate IsFact(op: Op) {
    !op.Backup? && !op.ClearDatabase? && !op.CreateVectorIndex?
  }

  /** The five extractors on one usable document, in the order the driver calls them. */
  function DocumentOps(d: Document, diagnostics: seq<DiagnosticInfo>): (ops: seq<Op>)
    ensures !Usable(d) ==> ops == []
  {
    if !d.hasSemanticModel || d.syntaxTree.None? then []
    else
      match d.root
      case None => []
      case Some(root) =>
        Processor.ProcessClasses(root.classes, d.filePath)
          + Processor.ProcessRecords(root.records, d.filePath)
          + Processor.ProcessMethods(root.methods)
          + Processor.ProcessMethodCalls(root.invocations)
          + Processor.ProcessDiagnostics(diagnostics, d.syntaxTree.value)
  }

  /** A project without a compilation is skipped; otherwise its documents in order. */
  function ProjectOps(p: Project): (ops: seq<Op>)
    ensures p.compilation.None? ==> ops == []
  {
    match p.compilation
    case None => []
    case Some(diagnostics) => FlatMap(p.documents, d => DocumentOps(d, diagnostics))
  }

  /**
   * The whole run. Backup and clear come before the argument check, so they happen even when
   * no solution path is given; the solution is only looked at when one is.
   */
  function Run(args: seq<string>, solution: Solution): (trace: seq<Op>) {
    [GraphDb.Backup, GraphDb.ClearDatabase]
      + (if |args| == 0 then [] else FlatMap(solution.projects, ProjectOps) + [GraphDb.CreateVectorIndex])
  }

  /** The facts of every project, between the clear and the index creation. */
  function Facts(solution: Solution): seq<Op> {
    FlatMap(solution.projects, ProjectOps)
  }

  // ---- Stages ----

  /**
   * The extractor that emits a call, when the call's kind tells: 0 classes, 1 records, 2 methods,
   * 3 invocations, 4 diagnostics. A dependency call may come from classes or records.
   */
  function Stage(op: Op): Option<nat> {
    match op
    case CreateClassNode(_, _, _, _) => Some(0)
    case CreateInheritance(_, _) => Some(0)
    case CreateInterfaceImplementation(_, _) => Some(0)
    case CreateAttributeUsage(_, _) => Some(0)
    case TagGodClass(_) => Some(0)
    case CreateRecordNode(_, _, _, _) => Some(1)
    case CreateMethodReturnType(_, _) => Some(2)
    case CreateMethodParameter(_, _) => Some(2)
    case CreateExceptionHandler(_, _) => Some(2)
    case CreateVariableRead(_, _, _) => Some(2)
    case CreateBranchCondition(_, _) => Some(2)
    case AddBranchingComplexity(_, _) => Some(2)
    case CreateMethodCall(_, _) => Some(3)
    case CreateDiagnosticIssue(_, _, _, _, _) => Some(4)
    case CreateDependency(_, _) => None
    case Backup => None
    case ClearDatabase => None
    case CreateVectorIndex => None
  }

  /** A fact that stage `k` emits: one of its own kind, or a dependency call from the class or record stage. */
  predicate InStage(op: Op, k: nat) {
    IsFact(op) && (if op.CreateDependency? then k <= 1 else Stage(op) == Some(k))
  }

  /** A fact of a stage up to `k`, or of no particular stage. */
  predicate UpToStage(op: Op, k: nat) {
    IsFact(op) && (Stage(op).None? || Stage(op).value <= k)
  }

  predicate AllInStage(s: seq<Op>, k: nat) {
    forall i :: 0 <= i < |s| ==> InStage(s[i], k)
  }

  predicate StagesUpTo(s: seq<Op>, k: nat) {
    forall i :: 0 <= i < |s| ==> UpToStage(s[i], k)
  }

  /**
   * `s` splits at `a <= b <= c <= e` into five consecutive runs, one per extractor in driver
   * order, each holding only calls that extractor emits; a non-empty class run starts with a class
   * node and a non-empty record run with a record node, so every dependency call follows a node
   * call of its own run.
   */
  predicate Segments(s: seq<Op>, a: nat, b: nat, c: nat, e: nat) {
    && a <= b <= c <= e <= |s|
    && AllInStage(s[..a], 0) && AllInStage(s[a..b], 1) && AllInStage(s[b..c], 2)
    && AllInStage(s[c..e], 3) && AllInStage(s[e..], 4)
    && (a > 0 ==> s[0].CreateClassNode?)
    && (b > a ==> s[a].CreateRecordNode?)
  }

  ghost predicate Segmented(s: seq<Op>) {
    exists a: nat, b: nat, c: nat, e: nat :: Segments(s, a, b, c, e)
  }

  /** No call of a later stage comes before a call of an earlier stage. */
  predicate StageOrdered(s: seq<Op>) {
    forall i, j :: 0 <= i < j < |s| && Stage(s[i]).Some? && Stage(s[j]).Some? ==> Stage(s[i]).value <= Stage(s[j]).value
  }

  lemma StageAppend(a: seq<Op>, b: seq<Op>, k: nat)
    requires StageOrdered(a) && StagesUpTo(a, k) && AllInStage(b, k)
    ensures StageOrdered(a + b) && StagesUpTo(a + b, k)
  {
    var s := a + b;
    forall i, j | 0 <= i < j < |s| && Stage(s[i]).Some? && Stage(s[j]).Some?
      ensures Stage(s[i]).value <= Stage(s[j]).value
    {
      if j < |a| {
        assert s[i] == a[i] && s[j] == a[j];
      } else if i < |a| {
        assert s[i] == a[i] && s[j] == b[j - |a|];
        assert UpToStage(a[i], k) && InStage(b[j - |a|], k);
      } else {
        assert s[i] == b[i - |a|] && s[j] == b[j - |a|];
        assert InStage(b[i - |a|], k) && InStage(b[j - |a|], k);
      }
    }
    forall i | 0 <= i < |s| ensures UpToStage(s[i], k) {
      if i < |a| {
        assert s[i] == a[i];
      } else {
        assert s[i] == b[i - |a|];
        assert InStage(b[i - |a|], k);
      }
    }
  }

  lemma ClassFactStage(op: Op)
    requires || op.CreateClassNode? || op.CreateInheritance? || op.CreateInterfaceImplementation?
             || op.CreateAttributeUsage? || op.TagGodClass? || op.CreateDependency?
    ensures InStage(op, 0)
  {
  }

  lemma RecordFactStage(op: Op)
    requires op.CreateRecordNode? || op.CreateDependency?
    ensures InStage(op, 1)
  {
  }

  lemma MethodFactStage(op: Op)
    requires Processor.IsMethodFact(op)
    ensures InStage(op, 2)
  {
  }

  lemma ClassInStage(c: ClassDecl, filePath: Option<string>)
    ensures AllInStage(Processor.ProcessClass(c, filePath), 0)
  {
    var ops := Processor.ProcessClass(c, filePath);
    forall j | 0 <= j < |ops| ensures InStage(ops[j], 0) {
      assert ops[j] in ops;
      ClassFactStage(ops[j]);
    }
  }

  lemma ClassesInStage(classes: seq<ClassDecl>, filePath: Option<string>)
    ensures AllInStage(Processor.ProcessClasses(classes, filePath), 0)
  {
    forall i | 0 <= i < |classes| ensures AllInStage(Processor.ProcessClass(classes[i], filePath), 0) {
      ClassInStage(classes[i], filePath);
    }
    FlatMapAll(classes, c => Processor.ProcessClass(c, filePath), op => InStage(op, 0));
  }

  lemma RecordInStage(rd: RecordDecl, filePath: Option<string>)
    ensures AllInStage(Processor.ProcessRecord(rd, filePath), 1)
  {
    var ops := Processor.ProcessRecord(rd, filePath);
    Processor.RecordFacts(rd, filePath);
    forall j | 0 <= j < |ops| ensures InStage(ops[j], 1) {
      RecordFactStage(ops[j]);
    }
  }

  lemma RecordsInStage(records: seq<RecordDecl>, filePath: Option<string>)
    ensures AllInStage(Processor.ProcessRecords(records, filePath), 1)
  {
    forall i | 0 <= i < |records| ensures AllInStage(Processor.ProcessRecord(records[i], filePath), 1) {
      RecordInStage(records[i], filePath);
    }
    FlatMapAll(records, rd => Processor.ProcessRecord(rd, filePath), op => InStage(op, 1));
  }

  lemma MethodInStage(m: MethodDecl)
    ensures AllInStage(Processor.ProcessMethod(m), 2)
  {
    var ops := Processor.ProcessMethod(m);
    forall j | 0 <= j < |ops| ensures InStage(ops[j], 2) {
      assert ops[j] in ops;
      MethodFactStage(ops[j]);
    }
  }

  lemma MethodsInStage(methods: seq<MethodDecl>)
    ensures AllInStage(Processor.ProcessMethods(methods), 2)
  {
    forall i | 0 <= i < |methods| ensures AllInStage(Processor.ProcessMethod(methods[i]), 2) {
      MethodInStage(methods[i]);
    }
    FlatMapAll(methods, Processor.ProcessMethod, op => InStage(op, 2));
  }

  lemma CallsInStage(calls: seq<Invocation>)
    ensures AllInStage(Processor.ProcessMethodCalls(calls), 3)
  {
    var ops := Processor.ProcessMethodCalls(calls);
    forall j | 0 <= j < |ops| ensures InStage(ops[j], 3) {
      assert ops[j] in ops;
      assert ops[j].CreateMethodCall?;
    }
  }

  lemma DiagnosticsInStage(diagnostics: seq<DiagnosticInfo>, tree: nat)
    ensures AllInStage(Processor.ProcessDiagnostics(diagnostics, tree), 4)
  {
    var ops := Processor.ProcessDiagnostics(diagnostics, tree);
    forall j | 0 <= j < |ops| ensures InStage(ops[j], 4) {
      assert ops[j] in ops;
      assert ops[j].CreateDiagnosticIssue?;
    }
  }

  /**
   * Within a document the extractors run in the fixed order classes, records, methods,
   * invocations, diagnostics, and each emits only facts.
   */
  lemma DocumentStageOrder(d: Document, diagnostics: seq<DiagnosticInfo>)
    ensures StageOrdered(DocumentOps(d, diagnostics))
    ensures StagesUpTo(DocumentOps(d, diagnostics), 4)
    ensures Segmented(DocumentOps(d, diagnostics))
  {
    if Usable(d) {
      var root := d.root.value;
      var cs := Processor.ProcessClasses(root.classes, d.filePath);
      var rs := Processor.ProcessRecords(root.records, d.filePath);
      ClassesInStage(root.classes, d.filePath);
      RecordsInStage(root.records, d.filePath);
      MethodsInStage(root.methods);
      CallsInStage(root.invocations);
      DiagnosticsInStage(diagnostics, d.syntaxTree.value);
      ClassesStartWithNode(root.classes, d.filePath);
      RecordsStartWithNode(root.records, d.filePath);
      StageChain(cs, rs, Processor.ProcessMethods(root.methods), Processor.ProcessMethodCalls(root.invocations),
                 Processor.ProcessDiagnostics(diagnostics, d.syntaxTree.value));
      SegmentChain(cs, rs, Processor.ProcessMethods(root.methods), Processor.ProcessMethodCalls(root.invocations),
                   Processor.ProcessDiagnostics(diagnostics, d.syntaxTree.value));
    } else {
      assert Segments([], 0, 0, 0, 0);
    }
  }

  /** A dependency call ahead of every node call cannot come from the driver's extractor order. */
  lemma DependencyBeforeNodesExcluded(path: string)
    ensures !Segmented([GraphDb.CreateDependency("R", "T"), GraphDb.CreateClassNode("C", "Global", "", path),
                        GraphDb.CreateRecordNode("R", "Global", "", path)])
  {
    SegmentedHead([GraphDb.CreateDependency("R", "T"), GraphDb.CreateClassNode("C", "Global", "", path),
                   GraphDb.CreateRecordNode("R", "Global", "", path)]);
  }

  /** In the extractor order, no dependency call comes first: it would precede every node call. */
  lemma SegmentedHead(s: seq<Op>)
    requires |s| > 0
    ensures Segmented(s) ==> !s[0].CreateDependency?
  {
    if Segmented(s) {
      var a: nat, b: nat, c: nat, e: nat :| Segments(s, a, b, c, e);
      if a > 0 {
      } else if b > 0 {
      } else if c > 0 {
        assert s[b..c][0] == s[0];
      } else if e > 0 {
        assert s[c..e][0] == s[0];
      } else {
        assert s[e..][0] == s[0];
      }
    }
  }

  /** The class extractor's calls, when there are any, start with a class node. */
  lemma ClassesStartWithNode(classes: seq<ClassDecl>, filePath: Option<string>)
    ensures var ops := Processor.ProcessClasses(classes, filePath);
      |ops| > 0 ==> ops[0].CreateClassNode?
  {
    if |classes| > 0 {
      var first := Processor.ProcessClass(classes[0], filePath);
      assert Processor.ProcessClasses(classes, filePath)
        == first + FlatMap(classes[1..], c => Processor.ProcessClass(c, filePath));
      assert first[0] == Processor.ClassNodeOp(classes[0], filePath);
    }
  }

  /** The record extractor's calls, when there are any, start with a record node. */
  lemma RecordsStartWithNode(records: seq<RecordDecl>, filePath: Option<string>)
    ensures var ops := Processor.ProcessRecords(records, filePath);
      |ops| > 0 ==> ops[0].CreateRecordNode?
  {
    if |records| > 0 {
      var first := Processor.ProcessRecord(records[0], filePath);
      assert Processor.ProcessRecords(records, filePath)
        == first + FlatMap(records[1..], rd => Processor.ProcessRecord(rd, filePath));
    }
  }

  /** Five runs in stage order, the first two starting with their node calls, form segments. */
  lemma SegmentChain(cs: seq<Op>, rs: seq<Op>, m: seq<Op>, i: seq<Op>, x: seq<Op>)
    requires AllInStage(cs, 0) && AllInStage(rs, 1) && AllInStage(m, 2) && AllInStage(i, 3) && AllInStage(x, 4)
    requires |cs| > 0 ==> cs[0].CreateClassNode?
    requires |rs| > 0 ==> rs[0].CreateRecordNode?
    ensures Segmented(cs + rs + m + i + x)
  {
    var s := cs + rs + m + i + x;
    var a, b, c, e := |cs|, |cs| + |rs|, |cs| + |rs| + |m|, |cs| + |rs| + |m| + |i|;
    assert s[..a] == cs;
    assert s[a..b] == rs;
    assert s[b..c] == m;
    assert s[c..e] == i;
    assert s[e..] == x;
    assert Segments(s, a, b, c, e);
  }

  /** Five runs of calls, each of its own stage in increasing order, make an ordered whole. */
  lemma StageChain(c: seq<Op>, r: seq<Op>, m: seq<Op>, i: seq<Op>, x: seq<Op>)
    requires AllInStage(c, 0) && AllInStage(r, 1) && AllInStage(m, 2) && AllInStage(i, 3) && AllInStage(x, 4)
    ensures StageOrdered(c + r + m + i + x) && StagesUpTo(c + r + m + i + x, 4)
  {
    StageAppend([], c, 0);
    assert [] + c == c;
    StageAppend(c, r, 1);
    StageAppend(c + r, m, 2);
    StageAppend(c + r + m, i, 3);
    StageAppend(c + r + m + i, x, 4);
  }

  /** Every call of a document is a fact. */
  lemma DocumentFactsOnly(d: Document, diagnostics: seq<DiagnosticInfo>)
    ensures forall j :: 0 <= j < |DocumentOps(d, diagnostics)| ==> IsFact(DocumentOps(d, diagnostics)[j])
  {
    DocumentStageOrder(d, diagnostics);
    var ops := DocumentOps(d, diagnostics);
    forall j | 0 <= j < |ops| ensures IsFact(ops[j]) {
      assert UpToStage(ops[j], 4);
    }
  }

  lemma ProjectFactsOnly(p: Project)
    ensures forall j :: 0 <= j < |ProjectOps(p)| ==> IsFact(ProjectOps(p)[j])
  {
    if p.compilation.Some? {
      var diagnostics := p.compilation.value;
      forall i | 0 <= i < |p.documents|
        ensures forall k :: 0 <= k < |DocumentOps(p.documents[i], diagnostics)| ==> IsFact(DocumentOps(p.documents[i], diagnostics)[k])
      {
        DocumentFactsOnly(p.documents[i], diagnostics);
      }
      FlatMapAll(p.documents, d => DocumentOps(d, diagnostics), IsFact);
    }
  }

  /** Every call between the clear and the index creation is a fact. */
  lemma FactsOnly(solution: Solution)
    ensures forall j :: 0 <= j < |Facts(solution)| ==> IsFact(Facts(solution)[j])
  {
    forall i | 0 <= i < |solution.projects|
      ensures forall k :: 0 <= k < |ProjectOps(solution.projects[i])| ==> IsFact(ProjectOps(solution.projects[i])[k])
    {
      ProjectFactsOnly(solution.projects[i]);
    }
    FlatMapAll(solution.projects, ProjectOps, IsFact);
  }

  /** Every call of a project comes from one of its usable documents, and the project compiles. */
  lemma ProjectOrigin(p: Project, op: Op)
    requires op in ProjectOps(p)
    ensures p.compilation.Some?
    ensures exists d :: d in p.documents && Usable(d) && op in DocumentOps(d, p.compilation.value)
  {
    var diagnostics := p.compilation.value;
    var j :| 0 <= j < |ProjectOps(p)| && ProjectOps(p)[j] == op;
    var n :| 0 <= n < |p.documents| && op in DocumentOps(p.documents[n], diagnostics);
    assert p.documents[n] in p.documents;
  }

  /** Every fact of a run comes from a usable document of a project that compiles. */
  lemma FactsOrigin(solution: Solution, op: Op)
    requires op in Facts(solution)
    ensures exists p, d :: p in solution.projects && p.compilation.Some? && d in p.documents && Usable(d)
                           && op in DocumentOps(d, p.compilation.value)
  {
    var j :| 0 <= j < |Facts(solution)| && Facts(solution)[j] == op;
    var i :| 0 <= i < |solution.projects| && op in ProjectOps(solution.projects[i]);
    ProjectOrigin(solution.projects[i], op);
    assert solution.projects[i] in solution.projects;
  }

  // ---- The shape of a run ----

  /** A run with a solution path: backup, clear, the facts, then the index. */
  lemma RunShape(args: seq<string>, solution: Solution)
    ensures |args| == 0 ==> Run(args, solution) == [GraphDb.Backup, GraphDb.ClearDatabase]
    ensures |args| > 0 ==> Run(args, solution) == [GraphDb.Backup, GraphDb.ClearDatabase] + Facts(solution) + [GraphDb.CreateVectorIndex]
  {
  }

  /** The bracket around a sequence of facts: what is first, what is last, and what never recurs. */
  lemma BracketShape(fs: seq<Op>)
    requires forall j :: 0 <= j < |fs| ==> IsFact(fs[j])
    ensures var trace := [GraphDb.Backup, GraphDb.ClearDatabase] + fs + [GraphDb.CreateVectorIndex];
      && trace[0] == GraphDb.Backup && trace[1] == GraphDb.ClearDatabase
      && trace[|trace| - 1] == GraphDb.CreateVectorIndex
      && (forall i :: 2 <= i < |trace| ==> !trace[i].Backup? && !trace[i].ClearDatabase?)
      && (forall i :: 0 <= i < |trace| - 1 ==> !trace[i].CreateVectorIndex?)
  {
    var trace := [GraphDb.Backup, GraphDb.ClearDatabase] + fs + [GraphDb.CreateVectorIndex];
    forall i | 2 <= i < |trace| - 1 ensures IsFact(trace[i]) {
      assert trace[i] == fs[i - 2];
    }
  }

  /** Backup first and clear second, and neither ever again. */
  lemma RunStartsWithBackupAndClear(args: seq<string>, solution: Solution)
    ensures var trace := Run(args, solution);
      && |trace| >= 2 && trace[0] == GraphDb.Backup && trace[1] == GraphDb.ClearDatabase
      && forall i :: 2 <= i < |trace| ==> !trace[i].Backup? && !trace[i].ClearDatabase?
  {
    RunShape(args, solution);
    if |args| > 0 {
      FactsOnly(solution);
      BracketShape(Facts(solution));
    }
  }

  /** Without arguments the run is exactly backup and clear: no extraction and no index. */
  lemma NoArgumentsOnlyClears(args: seq<string>, solution: Solution)
    ensures |args| == 0 <==> Run(args, solution) == [GraphDb.Backup, GraphDb.ClearDatabase]
  {
    RunShape(args, solution);
    if |args| > 0 {
      assert |Run(args, solution)| >= 3;
    }
  }

  /** With a solution path the index is created exactly once, as the very last call; without one, never. */
  lemma IndexCreatedOnceLast(args: seq<string>, solution: Solution)
    ensures var trace := Run(args, solution);
      && (|args| > 0 ==> trace[|trace| - 1] == GraphDb.CreateVectorIndex
                         && forall i :: 0 <= i < |trace| - 1 ==> !trace[i].CreateVectorIndex?)
      && (|args| == 0 ==> forall i :: 0 <= i < |trace| ==> !trace[i].CreateVectorIndex?)
  {
    RunShape(args, solution);
    if |args| > 0 {
      FactsOnly(solution);
      BracketShape(Facts(solution));
    }
  }

  /** A solution whose projects all lack a compilation, or whose documents are all unusable, writes no fact. */
  lemma SkippedProjectsWriteNothing(solution: Solution)
    requires forall p :: p in solution.projects ==> p.compilation.None? || forall d :: d in p.documents ==> !Usable(d)
    ensures Facts(solution) == []
  {
    if |Facts(solution)| > 0 {
      FactsOrigin(solution, Facts(solution)[0]);
    }
  }

  // ---- Executing a run ----

  /** The database after the calls of `ops`, one after another. */
  function Execute(g: Graph, ops: seq<Op>, embed: GraphDb.Embedder): (r: Graph)
    ensures PropertyGraph.Valid(g) ==> PropertyGraph.Valid(r)
    ensures (forall i :: 0 <= i < |ops| ==> !ops[i].CreateVectorIndex?) ==> r.indexes == g.indexes
    decreases |ops|
  {
    if |ops| == 0 then g else Execute(GraphDb.Apply(g, ops[0], embed), ops[1..], embed)
  }

  lemma {:induction false} ExecuteAppend(g: Graph, a: seq<Op>, b: seq<Op>, embed: GraphDb.Embedder)
    ensures Execute(g, a + b, embed) == Execute(Execute(g, a, embed), b, embed)
    decreases |a|
  {
    if |a| > 0 {
      assert (a + b)[1..] == a[1..] + b;
      ExecuteAppend(GraphDb.Apply(g, a[0], embed), a[1..], b, embed);
    } else {
      assert a + b == b;
    }
  }

  /** Without the index creation, the calls neither read nor change the schema. */
  lemma {:induction false} ExecuteIgnoresSchema(g: Graph, ops: seq<Op>, embed: GraphDb.Embedder,
                                                ix: map<string, PropertyGraph.VectorIndex>)
    requires forall i :: 0 <= i < |ops| ==> !ops[i].CreateVectorIndex?
    ensures Execute(g.(indexes := ix), ops, embed) == Execute(g, ops, embed).(indexes := ix)
    decreases |ops|
  {
    if |ops| > 0 {
      GraphDb.ApplyIgnoresSchema(g, ops[0], embed, ix);
      ExecuteIgnoresSchema(GraphDb.Apply(g, ops[0], embed), ops[1..], embed, ix);
    }
  }

  lemma {:induction false} ExecuteKeepsNoDependsOn(g: Graph, ops: seq<Op>, embed: GraphDb.Embedder)
    requires GraphDb.NoDependsOn(g)
    ensures GraphDb.NoDependsOn(Execute(g, ops, embed))
    decreases |ops|
  {
    if |ops| > 0 {
      GraphDb.ApplyKeepsNoDependsOn(g, ops[0], embed);
      ExecuteKeepsNoDependsOn(GraphDb.Apply(g, ops[0], embed), ops[1..], embed);
    }
  }

  /** Backup then clear leaves an empty graph with the schema it found. */
  lemma HeadClears(g: Graph, embed: GraphDb.Embedder)
    ensures Execute(g, [GraphDb.Backup, GraphDb.ClearDatabase], embed) == PropertyGraph.Graph([], {}, g.indexes)
  {
    assert [GraphDb.Backup, GraphDb.ClearDatabase][1..] == [GraphDb.ClearDatabase];
  }

  /** A run starts from the schema of the database it finds and an empty graph: what was there before does not matter. */
  lemma RunStartsEmpty(g: Graph, args: seq<string>, solution: Solution, embed: GraphDb.Embedder)
    ensures Execute(g, Run(args, solution), embed) == Execute(PropertyGraph.Graph([], {}, g.indexes), Run(args, solution), embed)
  {
    var empty := PropertyGraph.Graph([], {}, g.indexes);
    var head := [GraphDb.Backup, GraphDb.ClearDatabase];
    var rest := Run(args, solution)[2..];
    assert Run(args, solution) == head + rest;
    ExecuteAppend(g, head, rest, embed);
    ExecuteAppend(empty, head, rest, embed);
    HeadClears(g, embed);
    HeadClears(empty, embed);
  }

  /** The database a run leaves holds no DEPENDS_ON relationship, whatever the solution. */
  lemma RunLeavesNoDependsOn(g: Graph, args: seq<string>, solution: Solution, embed: GraphDb.Embedder)
    ensures GraphDb.NoDependsOn(Execute(g, Run(args, solution), embed))
  {
    var empty := PropertyGraph.Graph([], {}, g.indexes);
    var head := [GraphDb.Backup, GraphDb.ClearDatabase];
    RunStartsEmpty(g, args, solution, embed);
    var rest := Run(args, solution)[2..];
    assert Run(args, solution) == head + rest;
    ExecuteAppend(empty, head, rest, embed);
    HeadClears(empty, embed);
    ExecuteKeepsNoDependsOn(empty, rest, embed);
  }

  /** The index creation as a last call. */
  lemma IndexLast(h: Graph, embed: GraphDb.Embedder)
    ensures Execute(h, [GraphDb.CreateVectorIndex], embed) == GraphDb.CreateVectorIndexStep(h)
  {
    assert [GraphDb.CreateVectorIndex][1..] == [];
  }

  /** Calls bracketed by backup and clear before and the index creation after, on an empty graph. */
  lemma BracketOnEmpty(ix: map<string, PropertyGraph.VectorIndex>, fs: seq<Op>, embed: GraphDb.Embedder)
    ensures var empty := PropertyGraph.Graph([], {}, ix);
      Execute(empty, [GraphDb.Backup, GraphDb.ClearDatabase] + fs + [GraphDb.CreateVectorIndex], embed)
        == GraphDb.CreateVectorIndexStep(Execute(empty, fs, embed))
  {
    var empty := PropertyGraph.Graph([], {}, ix);
    var head := [GraphDb.Backup, GraphDb.ClearDatabase];
    var idx := [GraphDb.CreateVectorIndex];
    assert head + fs + idx == head + (fs + idx);
    ExecuteAppend(empty, head, fs + idx, embed);
    HeadClears(empty, embed);
    ExecuteAppend(empty, fs, idx, embed);
    IndexLast(Execute(empty, fs, embed), embed);
  }

  /** With a solution path, a run on an empty graph is the facts followed by the index creation. */
  lemma RunOnEmpty(ix: map<string, PropertyGraph.VectorIndex>, args: seq<string>, solution: Solution, embed: GraphDb.Embedder)
    requires |args| > 0
    ensures var empty := PropertyGraph.Graph([], {}, ix);
      Execute(empty, Run(args, solution), embed) == GraphDb.CreateVectorIndexStep(Execute(empty, Facts(solution), embed))
  {
    RunShape(args, solution);
    BracketOnEmpty(ix, Facts(solution), embed);
  }

  /** Running the same extraction twice leaves the database exactly as running it once. */
  lemma RebuildIdempotent(g: Graph, args: seq<string>, solution: Solution, embed: GraphDb.Embedder)
    ensures var once := Execute(g, Run(args, solution), embed);
      Execute(once, Run(args, solution), embed) == once
  {
    var once := Execute(g, Run(args, solution), embed);
    RunStartsEmpty(g, args, solution, embed);
    RunStartsEmpty(once, args, solution, embed);
    RunShape(args, solution);
    if |args| == 0 {
      HeadClears(PropertyGraph.Graph([], {}, g.indexes), embed);
      HeadClears(PropertyGraph.Graph([], {}, once.indexes), embed);
    } else {
      var empty := PropertyGraph.Graph([], {}, g.indexes);
      var h := Execute(empty, Facts(solution), embed);
      RunOnEmpty(g.indexes, args, solution, embed);
      RunOnEmpty(once.indexes, args, solution, embed);
      FactsOnly(solution);
      ExecuteIgnoresSchema(empty, Facts(solution), embed, once.indexes);
      assert PropertyGraph.Graph([], {}, once.indexes) == empty.(indexes := once.indexes);
    }
  }
}

=== FILE: processor.dfy ===
/**
 * The fact extractor (code-insight/CsParser/Processor.cs): for one document, the sequence of
 * graph-service calls each processor makes, computed from the front end's answers.
 */
module Processor {
  import opened Base
  import opened Semantics
  import GraphDb

  type Op = GraphDb.Op

  /** A class with more distinct dependency names than this is tagged as a god class. */
  const ClassDependencyThreshold := 100

  /** `document.FilePath ?? "Unknown"`. */
  function PathOf(filePath: Option<string>): string {
    match filePath
    case Some(p) => p
    case None => "Unknown"
  }

  // ---- Classes ----

  /** The declared symbol's display, or the identifier as written when the class does not resolve. */
  function ClassFullName(c: ClassDecl): string {
    match c.symbol
    case Some(s) => s.display
    case None => c.identifierText
  }

  function ClassNamespace(c: ClassDecl): string {
    match c.symbol
    case Some(s) => s.containingNamespace
    case None => "Global"
  }

  /** The per-class dependency set after some steps, and the names newly added by them, in order. */
  datatype Walk = Walk(deps: set<string>, added: seq<string>)

  /** `w` extends `deps`: `added` lists, once each, exactly the names `w.deps` has beyond `deps`. */
  predicate Grows(deps: set<string>, w: Walk) {
    && deps <= w.deps
    && NoDup(w.added)
    && (forall i :: 0 <= i < |w.added| ==> w.added[i] in w.deps && w.added[i] !in deps)
    && (forall n :: n in w.deps && n !in deps ==> n in w.added)
  }

  /** One step after another. */
  function Chain(w1: Walk, w2: Walk): Walk {
    Walk(w2.deps, w1.added + w2.added)
  }

  lemma ChainGrows(deps: set<string>, w1: Walk, w2: Walk)
    requires Grows(deps, w1) && Grows(w1.deps, w2)
    ensures Grows(deps, Chain(w1, w2))
  {
    NoDupConcat(w1.added, w2.added);
  }

  /** `dependencies.Add(name)`: the name is reported as new, and recorded, only when it was absent. */
  function AddName(deps: set<string>, name: string): (w: Walk)
    ensures w.deps == deps + {name}
    ensures Grows(deps, w)
    ensures |w.added| <= 1
  {
    if name in deps then Walk(deps, []) else Walk(deps + {name}, [name])
  }

  /** Display names of every generic type in the tree, the tree itself included; never a non-generic leaf. */
  function GenericNames(t: TypeTree): set<string>
    decreases t, 1
  {
    match t
    case Unnamed(_) => {}
    case Named(d, args) => (if |args| > 0 then {d} else {}) + ArgNamesFrom(t, 0)
  }

  /** The generic names below the type arguments from position `i` on. */
  function ArgNamesFrom(t: TypeTree, i: nat): set<string>
    requires t.Named?
    decreases t, 0, |t.args| - i
  {
    if i >= |t.args| then {} else GenericNames(t.args[i]) + ArgNamesFrom(t, i + 1)
  }

  /**
   * `ExtractGenericTypeArguments`: for a generic type, once per type argument, record the
   * ENCLOSING type's name (not the argument's) and walk into the argument.
   * The set gains exactly the names of the generic types in the tree.
   */
  function ExtractGenericTypeArguments(t: TypeTree, deps: set<string>): (w: Walk)
    ensures w.deps == deps + GenericNames(t)
    ensures Grows(deps, w)
    decreases t, 1
  {
    match t
    case Unnamed(_) => Walk(deps, [])
    case Named(_, _) => WalkArguments(t, 0, deps)
  }

  /** The loop over `TypeArguments` from position `i` on. */
  function WalkArguments(t: TypeTree, i: nat, deps: set<string>): (w: Walk)
    requires t.Named? && i <= |t.args|
    ensures w.deps == deps + (if i < |t.args| then {t.display} else {}) + ArgNamesFrom(t, i)
    ensures Grows(deps, w)
    decreases t, 0, |t.args| - i
  {
    if i == |t.args| then Walk(deps, [])
    else
      var w1 := AddName(deps, t.display);
      var w2 := ExtractGenericTypeArguments(t.args[i], w1.deps);
      var w3 := WalkArguments(t, i + 1, w2.deps);
      ChainGrows(deps, w1, w2);
      ChainGrows(deps, Chain(w1, w2), w3);
      Chain(Chain(w1, w2), w3)
  }

  /** The declared types of a class's members: its properties, then each field's type once per variable. */
  function MemberTypes(c: ClassDecl): seq<SymbolInfo> {
    c.properties + FieldTypes(c.fields)
  }

  function FieldTypes(fields: seq<FieldDecl>): seq<SymbolInfo> {
    if |fields| == 0 then []
    else seq(|fields[0].variables|, _ => fields[0].typeInfo) + FieldTypes(fields[1..])
  }

  /** The names one member type contributes: its display name and, for a type, its generic names. */
  function MemberNames(info: SymbolInfo): set<string> {
    match Resolve(info)
    case None => {}
    case Some(s) =>
      {Display(s)} + (match s case TypeSymbol(t) => GenericNames(t) case OtherSymbol(_) => {})
  }

  function AllMemberNames(types: seq<SymbolInfo>): set<string> {
    if |types| == 0 then {} else MemberNames(types[0]) + AllMemberNames(types[1..])
  }

  /** The distinct type names a class depends on, by definition: what the extraction must record. */
  function DependencyNames(c: ClassDecl): set<string> {
    AllMemberNames(MemberTypes(c))
  }

  /** One property or field variable: skip it when the type does not resolve, else record its name and walk it. */
  function MemberDependency(info: SymbolInfo, deps: set<string>): (w: Walk)
    ensures w.deps == deps + MemberNames(info)
    ensures Grows(deps, w)
  {
    match Resolve(info)
    case None => Walk(deps, [])
    case Some(s) =>
      var w1 := AddName(deps, Display(s));
      match s
      case OtherSymbol(_) => w1
      case TypeSymbol(t) =>
        var w2 := ExtractGenericTypeArguments(t, w1.deps);
        ChainGrows(deps, w1, w2);
        Chain(w1, w2)
  }

  /** All members of a class, in order, threading one dependency set. */
  function MemberDependencies(types: seq<SymbolInfo>, deps: set<string>): (w: Walk)
    ensures w.deps == deps + AllMemberNames(types)
    ensures Grows(deps, w)
    decreases |types|
  {
    if |types| == 0 then Walk(deps, [])
    else
      var w1 := MemberDependency(types[0], deps);
      var w2 := MemberDependencies(types[1..], w1.deps);
      ChainGrows(deps, w1, w2);
      Chain(w1, w2)
  }

  function DependencyOps(owner: string, names: seq<string>): (ops: seq<Op>)
    ensures |ops| == |names|
    ensures forall i :: 0 <= i < |names| ==> ops[i] == GraphDb.CreateDependency(owner, names[i])
    ensures forall op :: op in ops ==> op.CreateDependency? && op.recordName == owner
    ensures forall n :: GraphDb.CreateDependency(owner, n) in ops <==> n in names
  {
    var ops := seq(|names|, i requires 0 <= i < |names| => GraphDb.CreateDependency(owner, names[i]));
    assert forall op :: op in ops ==> op.CreateDependency? && op.recordName == owner && op.typeName in names;
    assert forall n :: n in names ==> GraphDb.CreateDependency(owner, n) in ops by {
      forall n | n in names ensures GraphDb.CreateDependency(owner, n) in ops {
        var i :| 0 <= i < |names| && names[i] == n;
        assert ops[i] == GraphDb.CreateDependency(owner, n);
      }
    }
    ops
  }

  /** The class resolves and has a base type other than `object`. */
  predicate HasProperBase(c: ClassDecl) {
    c.symbol.Some? && c.symbol.value.baseType.Some? && !c.symbol.value.baseType.value.isObject
  }

  function BaseName(c: ClassDecl): string
    requires HasProperBase(c)
  {
    c.symbol.value.baseType.value.display
  }

  /** The direct interfaces of a resolved class, in declaration order. */
  function InterfacesOf(c: ClassDecl): seq<string> {
    match c.symbol
    case Some(s) => s.interfaces
    case None => []
  }

  function ClassNodeOp(c: ClassDecl, filePath: Option<string>): Op {
    GraphDb.CreateClassNode(c.valueText, ClassNamespace(c), c.text, PathOf(filePath))
  }

  /** An inheritance fact unless the base is `object`; one implementation fact per direct interface. */
  function SupertypeOps(c: ClassDecl, fullName: string): (ops: seq<Op>)
    ensures forall op :: op in ops ==>
              (op.CreateInheritance? || op.CreateInterfaceImplementation?) && op.className == fullName
    ensures forall b :: GraphDb.CreateInheritance(fullName, b) in ops <==> HasProperBase(c) && b == BaseName(c)
    ensures forall n :: GraphDb.CreateInterfaceImplementation(fullName, n) in ops <==> n in InterfacesOf(c)
  {
    var interfaces := InterfacesOf(c);
    var impl := seq(|interfaces|, i requires 0 <= i < |interfaces| => GraphDb.CreateInterfaceImplementation(fullName, interfaces[i]));
    assert forall n :: n in interfaces ==> GraphDb.CreateInterfaceImplementation(fullName, n) in impl by {
      forall n | n in interfaces ensures GraphDb.CreateInterfaceImplementation(fullName, n) in impl {
        var i :| 0 <= i < |interfaces| && interfaces[i] == n;
        assert impl[i] == GraphDb.CreateInterfaceImplementation(fullName, n);
      }
    }
    (if HasProperBase(c) then [GraphDb.CreateInheritance(fullName, BaseName(c))] else []) + impl
  }

  /** One attribute-usage call per attribute that resolves, naming the attribute's type, and no other. */
  function AttributeOps(fullName: string, attributes: seq<Option<string>>): (ops: seq<Op>)
    ensures |ops| <= |attributes|
    ensures forall op :: op in ops ==> op.CreateAttributeUsage? && op.className == fullName
    ensures forall a :: GraphDb.CreateAttributeUsage(fullName, a) in ops <==> Some(a) in attributes
  {
    if |attributes| == 0 then []
    else
      var rest := AttributeOps(fullName, attributes[1..]);
      assert attributes == [attributes[0]] + attributes[1..];
      match attributes[0]
      case Some(a) => [GraphDb.CreateAttributeUsage(fullName, a)] + rest
      case None => rest
  }

  /**
   * The calls for one class, given the dependency names its walk adds (in order) and whether it is a
   * god class: the node under the identifier's value, then the supertypes, the dependencies, the
   * attributes and the tag, all owned by the full name.
   */
  function ClassOps(c: ClassDecl, filePath: Option<string>, names: seq<string>, godClass: bool): (ops: seq<Op>)
    ensures |ops| > 0 && ops[0] == ClassNodeOp(c, filePath)
    ensures forall op :: op in ops ==>
              || op == ClassNodeOp(c, filePath)
              || ((op.CreateInheritance? || op.CreateInterfaceImplementation? || op.CreateAttributeUsage?)
                  && op.className == ClassFullName(c))
              || (op.CreateDependency? && op.recordName == ClassFullName(c))
              || op == GraphDb.TagGodClass(ClassFullName(c))
  {
    var fullName := ClassFullName(c);
    [ClassNodeOp(c, filePath)] + SupertypeOps(c, fullName) + DependencyOps(fullName, names)
      + AttributeOps(fullName, c.attributes) + (if godClass then [GraphDb.TagGodClass(fullName)] else [])
  }

  /** Inheritance unless the base is `object`, every direct interface, every attribute that resolves. */
  lemma ClassOpsRelations(c: ClassDecl, filePath: Option<string>, names: seq<string>, godClass: bool)
    ensures var ops := ClassOps(c, filePath, names, godClass);
      var full := ClassFullName(c);
      && (forall b :: GraphDb.CreateInheritance(full, b) in ops <==> HasProperBase(c) && b == BaseName(c))
      && (forall n :: GraphDb.CreateInterfaceImplementation(full, n) in ops <==> n in InterfacesOf(c))
      && (forall a :: GraphDb.CreateAttributeUsage(full, a) in ops <==> Some(a) in c.attributes)
  {
  }

  /** A dependency call for exactly the given names, and the tag exactly for a god class. */
  lemma ClassOpsDependencyTag(c: ClassDecl, filePath: Option<string>, names: seq<string>, godClass: bool)
    ensures var ops := ClassOps(c, filePath, names, godClass);
      && (forall n :: GraphDb.CreateDependency(ClassFullName(c), n) in ops <==> n in names)
      && (GraphDb.TagGodClass(ClassFullName(c)) in ops <==> godClass)
  {
  }

  /** The dependency calls among a class's calls are exactly one per given name, in order. */
  lemma ClassOpsDependencies(c: ClassDecl, filePath: Option<string>, names: seq<string>, godClass: bool)
    ensures Filter(ClassOps(c, filePath, names, godClass), IsDependency) == DependencyOps(ClassFullName(c), names)
  {
    var fullName := ClassFullName(c);
    var head := [ClassNodeOp(c, filePath)] + SupertypeOps(c, fullName);
    var deps := DependencyOps(fullName, names);
    var attrs := AttributeOps(fullName, c.attributes);
    var tail := attrs + (if godClass then [GraphDb.TagGodClass(fullName)] else []);
    assert ClassOps(c, filePath, names, godClass) == head + deps + tail;
    assert forall i :: 0 <= i < |head| ==> !IsDependency(head[i]) by {
      forall i | 0 <= i < |head| ensures !IsDependency(head[i]) {
        if i > 0 {
          assert head[i] in SupertypeOps(c, fullName);
        }
      }
    }
    assert forall i :: 0 <= i < |tail| ==> !IsDependency(tail[i]) by {
      forall i | 0 <= i < |tail| ensures !IsDependency(tail[i]) {
        if i < |attrs| {
          assert tail[i] in attrs;
        }
      }
    }
    FilterMiddle(head, deps, tail, IsDependency);
  }

  /** `ProcessClasses` for one class declaration. */
  function ProcessClass(c: ClassDecl, filePath: Option<string>): seq<Op> {
    var w := MemberDependencies(MemberTypes(c), {});
    ClassOps(c, filePath, w.added, |w.deps| > ClassDependencyThreshold)
  }

  /** Every class declaration of the document, in document order. */
  function ProcessClasses(classes: seq<ClassDecl>, filePath: Option<string>): seq<Op> {
    FlatMap(classes, c => ProcessClass(c, filePath))
  }

  // ---- Records ----

  function RecordFullName(rd: RecordDecl): string {
    match rd.symbol
    case Some(s) => s.display
    case None => rd.identifierText
  }

  function RecordNamespace(rd: RecordDecl): string {
    match rd.symbol
    case Some(s) => s.containingNamespace
    case None => "Global"
  }

  function ParametersOf(rd: RecordDecl): seq<Parameter> {
    match rd.parameters
    case Some(ps) => ps
    case None => []
  }

  /** A parameter with type syntax whose type resolves. */
  predicate HasResolvedType(p: Parameter) {
    p.typeInfo.Some? && Resolve(p.typeInfo.value).Some?
  }

  function ParameterTypeName(p: Parameter): string
    requires HasResolvedType(p)
  {
    Display(Resolve(p.typeInfo.value).value)
  }

  /** One dependency call per parameter whose type resolves, in order, duplicates included. */
  function ParameterDependencyOps(owner: string, ps: seq<Parameter>): (ops: seq<Op>)
    ensures |ops| == |Filter(ps, HasResolvedType)|
    ensures forall j :: 0 <= j < |ops| ==> ops[j] == GraphDb.CreateDependency(owner, ParameterTypeName(Filter(ps, HasResolvedType)[j]))
    ensures forall j :: 0 <= j < |ops| ==> ops[j].CreateDependency? && ops[j].recordName == owner
    ensures forall n :: GraphDb.CreateDependency(owner, n) in ops <==>
              exists k :: 0 <= k < |ps| && HasResolvedType(ps[k]) && n == ParameterTypeName(ps[k])
  {
    if |ps| == 0 then []
    else
      var rest := ParameterDependencyOps(owner, ps[1..]);
      assert forall k :: 1 <= k < |ps| ==> ps[k] == ps[1..][k - 1];
      if HasResolvedType(ps[0]) then
        assert Filter(ps, HasResolvedType) == [ps[0]] + Filter(ps[1..], HasResolvedType);
        [GraphDb.CreateDependency(owner, ParameterTypeName(ps[0]))] + rest
      else
        assert Filter(ps, HasResolvedType) == Filter(ps[1..], HasResolvedType);
        rest
  }

  /** `ProcessRecords` for one record declaration. */
  function ProcessRecord(rd: RecordDecl, filePath: Option<string>): seq<Op> {
    [GraphDb.CreateRecordNode(rd.valueText, RecordNamespace(rd), rd.text, PathOf(filePath))]
      + ParameterDependencyOps(RecordFullName(rd), ParametersOf(rd))
  }

  function ProcessRecords(records: seq<RecordDecl>, filePath: Option<string>): seq<Op> {
    FlatMap(records, rd => ProcessRecord(rd, filePath))
  }

  // ---- Methods ----

  /** The method's display name when the method, its enclosing class and that class's symbol all resolve. */
  function OwnedMethodName(m: MethodDecl): Option<string> {
    match (m.symbol, m.enclosing)
    case (Some(s), InClass(Some(_))) => Some(s.display)
    case _ => None
  }

  /** The body facts are extracted: the method is owned, has a block body, and data-flow analysis answered. */
  predicate Analysed(m: MethodDecl) {
    OwnedMethodName(m).Some? && m.body.Some? && m.body.value.dataFlowsIn.Some?
  }

  /** `if` statements plus `switch` statements: a structural proxy for cyclomatic complexity. */
  function BranchCount(b: Body): nat {
    |b.ifConditions| + b.switchCount
  }

  /** The facts about a method: each names the method in its `methodName` field. */
  predicate IsMethodFact(op: Op) {
    || op.CreateMethodReturnType? || op.CreateMethodParameter? || op.CreateExceptionHandler?
    || op.CreateVariableRead? || op.CreateBranchCondition? || op.AddBranchingComplexity?
  }

  /** A return-type fact unless the method returns `void`. */
  function ReturnTypeOps(name: string, rt: ReturnType): (ops: seq<Op>)
    ensures |ops| <= 1
    ensures forall op :: op in ops ==> op.CreateMethodReturnType? && op.methodName == name
    ensures forall t :: GraphDb.CreateMethodReturnType(name, t) in ops <==> rt == Returns(t)
  {
    match rt
    case Void => []
    case Returns(d) => [GraphDb.CreateMethodReturnType(name, d)]
  }

  /** One parameter fact per parameter, in order, repeats included. */
  function ParameterOps(name: string, types: seq<string>): (ops: seq<Op>)
    ensures |ops| == |types|
    ensures forall op :: op in ops ==> op.CreateMethodParameter? && op.methodName == name
    ensures forall t :: GraphDb.CreateMethodParameter(name, t) in ops <==> t in types
  {
    var ops := seq(|types|, i requires 0 <= i < |types| => GraphDb.CreateMethodParameter(name, types[i]));
    assert forall i :: 0 <= i < |types| ==> ops[i] == GraphDb.CreateMethodParameter(name, types[i]);
    ops
  }

  /** One handler fact per catch clause whose declared type resolves to a type, and no other. */
  function CatchOps(name: string, catches: seq<CatchClause>): (ops: seq<Op>)
    ensures |ops| <= |catches|
    ensures forall op :: op in ops ==> op.CreateExceptionHandler? && op.methodName == name
    ensures forall e :: GraphDb.CreateExceptionHandler(name, e) in ops <==> CatchType(Some(e)) in catches
  {
    if |catches| == 0 then []
    else
      var rest := CatchOps(name, catches[1..]);
      assert catches == [catches[0]] + catches[1..];
      match catches[0]
      case CatchType(Some(e)) => [GraphDb.CreateExceptionHandler(name, e)] + rest
      case _ => rest
  }

  /** One variable-read fact per local variable among the symbols flowing into the body, and no other. */
  function ReadOps(name: string, flows: seq<FlowSymbol>): (ops: seq<Op>)
    ensures |ops| <= |flows|
    ensures forall op :: op in ops ==> op.CreateVariableRead? && op.methodName == name
    ensures forall v, t :: GraphDb.CreateVariableRead(name, v, t) in ops <==> Local(v, t) in flows
  {
    if |flows| == 0 then []
    else
      var rest := ReadOps(name, flows[1..]);
      assert flows == [flows[0]] + flows[1..];
      match flows[0]
      case Local(v, t) => [GraphDb.CreateVariableRead(name, v, t)] + rest
      case NonLocal => rest
  }

  /** One condition fact per `if` statement, in order, repeats included. */
  function ConditionOps(name: string, conditions: seq<string>): (ops: seq<Op>)
    ensures |ops| == |conditions|
    ensures forall op :: op in ops ==> op.CreateBranchCondition? && op.methodName == name
    ensures forall e :: GraphDb.CreateBranchCondition(name, e) in ops <==> e in conditions
  {
    var ops := seq(|conditions|, i requires 0 <= i < |conditions| => GraphDb.CreateBranchCondition(name, conditions[i]));
    assert forall i :: 0 <= i < |conditions| ==> ops[i] == GraphDb.CreateBranchCondition(name, conditions[i]);
    ops
  }

  /** The branch-count fact, written only when the count is positive. */
  function BranchOps(name: string, b: Body): (ops: seq<Op>)
    ensures forall op :: op in ops ==> op.AddBranchingComplexity? && op.methodName == name
    ensures forall k :: GraphDb.AddBranchingComplexity(name, k) in ops <==> k == BranchCount(b) && k > 0
  {
    if BranchCount(b) > 0 then [GraphDb.AddBranchingComplexity(name, BranchCount(b))] else []
  }

  /** The body facts: nothing unless the method has a block body and data-flow analysis answered. */
  function BodyOps(name: string, body: Option<Body>): (ops: seq<Op>)
    ensures body.None? || body.value.dataFlowsIn.None? ==> ops == []
    ensures forall op :: op in ops ==>
              (op.CreateVariableRead? || op.CreateBranchCondition? || op.AddBranchingComplexity?) && op.methodName == name
  {
    match body
    case None => []
    case Some(b) =>
      match b.dataFlowsIn
      case None => []
      case Some(flows) => ReadOps(name, flows) + ConditionOps(name, b.ifConditions) + BranchOps(name, b)
  }

  /** Everything extracted from one owned method, in the order the source emits it. */
  function MethodOps(name: string, sym: MethodSymbol, catches: seq<CatchClause>, body: Option<Body>): (ops: seq<Op>)
    ensures forall op :: op in ops ==> IsMethodFact(op) && op.methodName == name
  {
    ReturnTypeOps(name, sym.returnType) + ParameterOps(name, sym.parameterTypes)
      + CatchOps(name, catches) + BodyOps(name, body)
  }

  /** `ProcessMethods` for one method declaration. */
  function ProcessMethod(m: MethodDecl): (ops: seq<Op>)
    ensures OwnedMethodName(m).None? ==> ops == []
    ensures OwnedMethodName(m).Some? ==> forall op :: op in ops ==> IsMethodFact(op) && op.methodName == OwnedMethodName(m).value
  {
    match m.symbol
    case None => []
    case Some(sym) =>
      match m.enclosing
      case NoClass => []
      case InClass(None) => []
      case InClass(Some(_)) => MethodOps(sym.display, sym, m.catches, m.body)
  }

  function ProcessMethods(methods: seq<MethodDecl>): seq<Op> {
    FlatMap(methods, ProcessMethod)
  }

  // ---- Invocations ----

  /** The caller's class name and the invoked method, when both resolve. */
  predicate Resolvable(c: Invocation) {
    c.invoked.Some? && c.enclosing.InClass? && c.enclosing.classSymbol.Some?
  }

  function CallOf(c: Invocation): Op
    requires Resolvable(c)
  {
    GraphDb.CreateMethodCall(c.enclosing.classSymbol.value, c.invoked.value)
  }

  /** `ProcessMethodCalls`: one call fact per invocation whose method and caller class resolve, no other. */
  function ProcessMethodCalls(calls: seq<Invocation>): (ops: seq<Op>)
    ensures |ops| <= |calls|
    ensures forall op :: op in ops <==> exists i :: 0 <= i < |calls| && Resolvable(calls[i]) && op == CallOf(calls[i])
  {
    if |calls| == 0 then []
    else
      var rest := ProcessMethodCalls(calls[1..]);
      assert forall i :: 1 <= i < |calls| ==> calls[i] == calls[1..][i - 1];
      if Resolvable(calls[0]) then [CallOf(calls[0])] + rest else rest
  }

  // ---- Diagnostics ----

  /** Security for "SCS…", else Performance for "CA18…" and "CA19…", else Compiler. */
  function Category(id: string): string {
    if StartsWith(id, "SCS") then "Security"
    else if StartsWith(id, "CA18") || StartsWith(id, "CA19") then "Performance"
    else "Compiler"
  }

  /** A diagnostic of the current syntax tree with severity Warning or Error. */
  predicate Considered(d: DiagnosticInfo, tree: nat) {
    d.location.InSource? && d.location.tree == tree && (d.severity == Warning || d.severity == Error)
  }

  /** The resolved class strictly above the diagnostic's found node, if any. */
  function ReportingClass(d: DiagnosticInfo): Option<string> {
    match d.location
    case InSource(_, Some(InClass(Some(c)))) => Some(c)
    case _ => None
  }

  function IssueOf(d: DiagnosticInfo, className: string): Op {
    GraphDb.CreateDiagnosticIssue(className, d.id, d.message, SeverityName(d.severity), Category(d.id))
  }

  /**
   * `ProcessDiagnostics`: an issue for exactly the considered diagnostics whose found node has a
   * resolved class declaration strictly above it; the rest are dropped.
   */
  function ProcessDiagnostics(diags: seq<DiagnosticInfo>, tree: nat): (ops: seq<Op>)
    ensures |ops| <= |diags|
    ensures forall op :: op in ops <==>
              exists i :: 0 <= i < |diags| && Considered(diags[i], tree) && ReportingClass(diags[i]).Some?
                          && op == IssueOf(diags[i], ReportingClass(diags[i]).value)
  {
    if |diags| == 0 then []
    else
      var rest := ProcessDiagnostics(diags[1..], tree);
      assert forall i :: 1 <= i < |diags| ==> diags[i] == diags[1..][i - 1];
      if Considered(diags[0], tree) && ReportingClass(diags[0]).Some?
      then [IssueOf(diags[0], ReportingClass(diags[0]).value)] + rest
      else rest
  }

  /**
   * A diagnostic on a class header finds the class declaration itself, whose ancestors hold no
   * class when it is top-level: the error is dropped. On a nested class's header it is credited
   * to the outer class.
   */
  lemma ClassHeaderDiagnostics(tree: nat)
    ensures var topLevel := DiagnosticInfo("CS0534", "m", Error, InSource(tree, Some(NoClass)));
      ProcessDiagnostics([topLevel], tree) == []
    ensures var nested := DiagnosticInfo("CS0534", "m", Error, InSource(tree, Some(InClass(Some("N.Outer")))));
      ProcessDiagnostics([nested], tree)
        == [GraphDb.CreateDiagnosticIssue("N.Outer", "CS0534", "m", "Error", "Compiler")]
  {
    assert "CS0534"[..3] == "CS0" && "CS0534"[..4] == "CS05";
  }

  // ---- What the extraction promises ----

  /** The name a call passes for the node it hangs its fact on; none for the whole-database calls. */
  function Subject(op: Op): Option<string> {
    match op
    case CreateRecordNode(n, _, _, _) => Some(n)
    case CreateClassNode(n, _, _, _) => Some(n)
    case CreateDependency(o, _) => Some(o)
    case CreateAttributeUsage(o, _) => Some(o)
    case CreateInheritance(o, _) => Some(o)
    case CreateVariableRead(o, _, _) => Some(o)
    case CreateMethodCall(o, _) => Some(o)
    case CreateBranchCondition(o, _) => Some(o)
    case CreateExceptionHandler(o, _) => Some(o)
    case AddBranchingComplexity(o, _) => Some(o)
    case CreateInterfaceImplementation(o, _) => Some(o)
    case CreateMethodReturnType(o, _) => Some(o)
    case CreateMethodParameter(o, _) => Some(o)
    case TagGodClass(o) => Some(o)
    case CreateDiagnosticIssue(o, _, _, _, _) => Some(o)
    case Backup => None
    case ClearDatabase => None
    case CreateVectorIndex => None
  }

  predicate IsDependency(op: Op) {
    op.CreateDependency?
  }

  predicate IsParameterFact(op: Op) {
    op.CreateMethodParameter?
  }

  predicate IsConditionFact(op: Op) {
    op.CreateBranchCondition?
  }

  /**
   * The class node is created under the identifier's value, while every other fact about the class
   * names it by its full display name: the two differ whenever the class sits in a namespace, and
   * for an unresolved class whenever its identifier is verbatim.
   */
  lemma ClassOwnership(c: ClassDecl, filePath: Option<string>)
    ensures var ops := ProcessClass(c, filePath);
      && GraphDb.CreateClassNode(c.valueText, ClassNamespace(c), c.text, PathOf(filePath)) in ops
      && (forall op :: op in ops && op.CreateClassNode? ==> op.name == c.valueText)
      && (forall op :: op in ops && !op.CreateClassNode? ==> Subject(op) == Some(ClassFullName(c)))
  {
    var ops := ProcessClass(c, filePath);
    forall op | op in ops
      ensures op.CreateClassNode? ==> op.name == c.valueText
      ensures !op.CreateClassNode? ==> Subject(op) == Some(ClassFullName(c))
    {
      if !op.CreateClassNode? {
        ClassFactSubject(op, ClassFullName(c));
      }
    }
  }

  /**
   * An unresolved class with a verbatim identifier: the node takes the identifier's value, every
   * other fact names the identifier as written.
   */
  lemma VerbatimClassNames(filePath: Option<string>)
    ensures var c := ClassDecl("@event", "event", "", None, [], [], [Some("Obsolete")]);
      ProcessClass(c, filePath)
        == [GraphDb.CreateClassNode("event", "Global", "", PathOf(filePath)),
            GraphDb.CreateAttributeUsage("@event", "Obsolete")]
  {
  }

  lemma ClassFactSubject(op: Op, full: string)
    requires || ((op.CreateInheritance? || op.CreateInterfaceImplementation? || op.CreateAttributeUsage?)
                 && op.className == full)
             || (op.CreateDependency? && op.recordName == full)
             || op == GraphDb.TagGodClass(full)
    ensures Subject(op) == Some(full)
  {
  }

  /** Inheritance unless the base is `object`; every direct interface; every attribute that resolves. */
  lemma ClassRelations(c: ClassDecl, filePath: Option<string>)
    ensures var ops := ProcessClass(c, filePath);
      var full := ClassFullName(c);
      && (forall b :: GraphDb.CreateInheritance(full, b) in ops <==> HasProperBase(c) && b == BaseName(c))
      && (forall n :: GraphDb.CreateInterfaceImplementation(full, n) in ops <==> n in InterfacesOf(c))
      && (forall a :: GraphDb.CreateAttributeUsage(full, a) in ops <==> Some(a) in c.attributes)
  {
    var w := MemberDependencies(MemberTypes(c), {});
    ClassOpsRelations(c, filePath, w.added, |w.deps| > ClassDependencyThreshold);
  }

  /**
   * The class gets one dependency call per distinct name of `DependencyNames`, and only those:
   * the per-class set suppresses every repeat.
   */
  lemma ClassDependencyFacts(c: ClassDecl, filePath: Option<string>)
    ensures var ops := ProcessClass(c, filePath);
      && (forall n :: GraphDb.CreateDependency(ClassFullName(c), n) in ops <==> n in DependencyNames(c))
      && |Filter(ops, IsDependency)| == |DependencyNames(c)|
  {
    var w := MemberDependencies(MemberTypes(c), {});
    ClassOpsDependencyTag(c, filePath, w.added, |w.deps| > ClassDependencyThreshold);
    ClassDependencyCount(c, filePath);
  }

  lemma ClassDependencyCount(c: ClassDecl, filePath: Option<string>)
    ensures |Filter(ProcessClass(c, filePath), IsDependency)| == |DependencyNames(c)|
  {
    var w := MemberDependencies(MemberTypes(c), {});
    ClassOpsDependencies(c, filePath, w.added, |w.deps| > ClassDependencyThreshold);
    assert |DependencyOps(ClassFullName(c), w.added)| == |w.added|;
    GrowsFromNothing(w);
  }

  /** A walk grown from the empty set lists each of its names exactly once. */
  lemma GrowsFromNothing(w: Walk)
    requires Grows({}, w)
    ensures |w.added| == |w.deps|
  {
    NoDupCard(w.added);
    assert Elems(w.added) == w.deps;
  }

  /** A class is tagged as a god class exactly when it has more distinct dependency names than the threshold. */
  lemma GodClassIff(c: ClassDecl, filePath: Option<string>)
    ensures GraphDb.TagGodClass(ClassFullName(c)) in ProcessClass(c, filePath)
            <==> |DependencyNames(c)| > ClassDependencyThreshold
  {
    var w := MemberDependencies(MemberTypes(c), {});
    ClassOpsDependencyTag(c, filePath, w.added, |w.deps| > ClassDependencyThreshold);
  }

  /** A named type without type arguments contributes no generic name and adds nothing to the walk. */
  lemma LeafWalk(t: TypeTree, deps: set<string>)
    requires t.Named? && |t.args| == 0
    ensures GenericNames(t) == {}
    ensures ExtractGenericTypeArguments(t, deps) == Walk(deps, [])
  {
    assert ArgNamesFrom(t, 0) == {};
  }

  /** After its first argument, `Pair<A, B>` is already recorded and `B` adds nothing. */
  lemma PairTailWalk(pair: TypeTree, both: set<string>)
    requires pair == Named("Pair<A, B>", [Named("A", []), Named("B", [])])
    requires "Pair<A, B>" in both
    ensures WalkArguments(pair, 1, both) == Walk(both, [])
  {
    LeafWalk(Named("B", []), both);
    assert AddName(both, "Pair<A, B>") == Walk(both, []);
    assert WalkArguments(pair, 2, both) == Walk(both, []);
  }

  /** `Pair<A, B>` seen below `Box<…>`: the walk adds `Pair<A, B>` once, for its first argument. */
  lemma PairWalk(pair: TypeTree)
    requires pair == Named("Pair<A, B>", [Named("A", []), Named("B", [])])
    ensures GenericNames(pair) == {"Pair<A, B>"}
    ensures ExtractGenericTypeArguments(pair, {"Box<Pair<A, B>>"}).added == ["Pair<A, B>"]
  {
    var both := {"Box<Pair<A, B>>", "Pair<A, B>"};
    LeafWalk(Named("A", []), both);
    LeafWalk(Named("B", []), both);
    assert ArgNamesFrom(pair, 0) == {} by {
      assert ArgNamesFrom(pair, 2) == {};
      assert ArgNamesFrom(pair, 1) == {};
    }
    PairTailWalk(pair, both);
    var w1 := AddName({"Box<Pair<A, B>>"}, "Pair<A, B>");
    assert w1 == Walk(both, ["Pair<A, B>"]);
    assert WalkArguments(pair, 0, {"Box<Pair<A, B>>"}) == Chain(Chain(w1, Walk(both, [])), Walk(both, []));
  }

  /** `Box<Pair<A, B>>`: the walk finds `Box<…>` already recorded and adds `Pair<A, B>` below it. */
  lemma BoxWalk(pair: TypeTree)
    requires pair == Named("Pair<A, B>", [Named("A", []), Named("B", [])])
    ensures var box := Named("Box<Pair<A, B>>", [pair]);
      && GenericNames(box) == {"Box<Pair<A, B>>", "Pair<A, B>"}
      && ExtractGenericTypeArguments(box, {"Box<Pair<A, B>>"}).added == ["Pair<A, B>"]
  {
    var box := Named("Box<Pair<A, B>>", [pair]);
    var outer := {"Box<Pair<A, B>>"};
    var both := {"Box<Pair<A, B>>", "Pair<A, B>"};
    PairWalk(pair);
    assert ArgNamesFrom(box, 1) == {};
    var inner := ExtractGenericTypeArguments(pair, outer);
    assert inner.deps == both;
    assert WalkArguments(box, 1, both) == Walk(both, []);
    assert AddName(outer, "Box<Pair<A, B>>") == Walk(outer, []);
    assert WalkArguments(box, 0, outer) == Chain(Chain(Walk(outer, []), inner), Walk(both, []));
  }

  /**
   * A property of type `Box<Pair<A, B>>` makes the class depend on `Box<Pair<A, B>>` and
   * `Pair<A, B>`, in that order, but not on `A` or `B`: the walk records the enclosing generic
   * type once per argument instead of the argument.
   */
  lemma NestedGenericExample()
    ensures var pair := Named("Pair<A, B>", [Named("A", []), Named("B", [])]);
      var box := Named("Box<Pair<A, B>>", [pair]);
      var c := ClassDecl("C", "C", "", None, [SymbolInfo(Some(TypeSymbol(box)), [])], [], []);
      && MemberDependencies(MemberTypes(c), {}).added == ["Box<Pair<A, B>>", "Pair<A, B>"]
      && DependencyNames(c) == {"Box<Pair<A, B>>", "Pair<A, B>"}
      && "A" !in DependencyNames(c)
  {
    var pair := Named("Pair<A, B>", [Named("A", []), Named("B", [])]);
    var box := Named("Box<Pair<A, B>>", [pair]);
    var c := ClassDecl("C", "C", "", None, [SymbolInfo(Some(TypeSymbol(box)), [])], [], []);
    var info := SymbolInfo(Some(TypeSymbol(box)), []);
    var outer := {"Box<Pair<A, B>>"};
    var both := {"Box<Pair<A, B>>", "Pair<A, B>"};
    BoxWalk(pair);
    var first := MemberDependency(info, {});
    assert first.added == ["Box<Pair<A, B>>", "Pair<A, B>"] by {
      assert first == Chain(Walk(outer, ["Box<Pair<A, B>>"]), ExtractGenericTypeArguments(box, outer));
    }
    assert MemberTypes(c) == [info];
    assert [info][1..] == [];
    assert MemberDependencies([info], {}) == Chain(first, MemberDependencies([], both));
  }

  /**
   * A record gets its node under the identifier's value and then one dependency call, owned by its
   * full name, per parameter whose type resolves: no de-duplication and no god-class check.
   */
  lemma RecordFacts(rd: RecordDecl, filePath: Option<string>)
    ensures var ops := ProcessRecord(rd, filePath);
      var ps := ParametersOf(rd);
      && ops[0] == GraphDb.CreateRecordNode(rd.valueText, RecordNamespace(rd), rd.text, PathOf(filePath))
      && |ops| == 1 + |Filter(ps, HasResolvedType)|
      && (forall j :: 1 <= j < |ops| ==>
            ops[j] == GraphDb.CreateDependency(RecordFullName(rd), ParameterTypeName(Filter(ps, HasResolvedType)[j - 1])))
      && (forall j :: 1 <= j < |ops| ==> ops[j].CreateDependency? && Subject(ops[j]) == Some(RecordFullName(rd)))
      && (forall n :: GraphDb.CreateDependency(RecordFullName(rd), n) in ops <==>
            exists k :: 0 <= k < |ps| && HasResolvedType(ps[k]) && n == ParameterTypeName(ps[k]))
  {
    var node := GraphDb.CreateRecordNode(rd.valueText, RecordNamespace(rd), rd.text, PathOf(filePath));
    RecordOpsOrder(node, RecordFullName(rd), ParametersOf(rd));
    RecordOpsOwner(node, RecordFullName(rd), ParametersOf(rd));
    RecordOpsMembers(node, RecordFullName(rd), ParametersOf(rd));
  }

  /** After the node call, the record calls are the resolved parameters' dependencies in order. */
  lemma RecordOpsOrder(node: Op, owner: string, ps: seq<Parameter>)
    ensures var ops := [node] + ParameterDependencyOps(owner, ps);
      forall j :: 1 <= j < |ops| ==> ops[j] == GraphDb.CreateDependency(owner, ParameterTypeName(Filter(ps, HasResolvedType)[j - 1]))
  {
    var rest := ParameterDependencyOps(owner, ps);
    var ops := [node] + rest;
    forall j | 1 <= j < |ops|
      ensures ops[j] == GraphDb.CreateDependency(owner, ParameterTypeName(Filter(ps, HasResolvedType)[j - 1]))
    {
      assert ops[j] == rest[j - 1];
    }
  }

  /** After the node call, every record call is a dependency owned by `owner`. */
  lemma RecordOpsOwner(node: Op, owner: string, ps: seq<Parameter>)
    ensures var ops := [node] + ParameterDependencyOps(owner, ps);
      forall j :: 1 <= j < |ops| ==> ops[j].CreateDependency? && Subject(ops[j]) == Some(owner)
  {
    var ops := [node] + ParameterDependencyOps(owner, ps);
    RecordOpsOrder(node, owner, ps);
    forall j | 1 <= j < |ops| ensures ops[j].CreateDependency? && Subject(ops[j]) == Some(owner) {
      DependencySubject(owner, ParameterTypeName(Filter(ps, HasResolvedType)[j - 1]));
    }
  }

  lemma DependencySubject(owner: string, typeName: string)
    ensures Subject(GraphDb.CreateDependency(owner, typeName)) == Some(owner)
  {
  }

  /** A record node call adds no dependency: the dependencies are those of the resolved parameters. */
  lemma RecordOpsMembers(node: Op, owner: string, ps: seq<Parameter>)
    requires node.CreateRecordNode?
    ensures var ops := [node] + ParameterDependencyOps(owner, ps);
      forall n :: GraphDb.CreateDependency(owner, n) in ops <==>
        exists k :: 0 <= k < |ps| && HasResolvedType(ps[k]) && n == ParameterTypeName(ps[k])
  {
    var rest := ParameterDependencyOps(owner, ps);
    forall n ensures GraphDb.CreateDependency(owner, n) in [node] + rest <==> GraphDb.CreateDependency(owner, n) in rest {
    }
  }

  /**
   * An unresolved record with a verbatim identifier: the node takes the identifier's value,
   * the dependency is owned by the identifier as written.
   */
  lemma VerbatimRecordNames(filePath: Option<string>)
    ensures var t := SymbolInfo(Some(TypeSymbol(Named("int", []))), []);
      var rd := RecordDecl("@params", "params", "", None, Some([Parameter(Some(t))]));
      ProcessRecord(rd, filePath)
        == [GraphDb.CreateRecordNode("params", "Global", "", PathOf(filePath)),
            GraphDb.CreateDependency("@params", "int")]
  {
  }

  /** Two parameters of the same type give two identical dependency calls. */
  lemma RecordKeepsRepeats(filePath: Option<string>)
    ensures var t := SymbolInfo(Some(TypeSymbol(Named("int", []))), []);
      var rd := RecordDecl("Point", "Point", "", None, Some([Parameter(Some(t)), Parameter(Some(t))]));
      var ops := ProcessRecord(rd, filePath);
      |ops| == 3 && ops[1] == ops[2] == GraphDb.CreateDependency("Point", "int")
  {
  }

  lemma MethodFactSubject(op: Op, name: string)
    requires IsMethodFact(op) && op.methodName == name
    ensures Subject(op) == Some(name)
  {
  }

  /** A method contributes nothing unless it, its enclosing class and that class's symbol resolve; then every fact names the method. */
  lemma MethodOwnership(m: MethodDecl)
    ensures OwnedMethodName(m).None? ==> ProcessMethod(m) == []
    ensures forall op :: op in ProcessMethod(m) ==> Subject(op) == OwnedMethodName(m)
  {
    if OwnedMethodName(m).Some? {
      var name := OwnedMethodName(m).value;
      forall op | op in ProcessMethod(m) ensures Subject(op) == Some(name) {
        MethodFactSubject(op, name);
      }
    }
  }

  /** The signature facts: the return type unless `void`, each parameter type, each catch type that resolves. */
  lemma MethodOpsSignature(name: string, sym: MethodSymbol, catches: seq<CatchClause>, body: Option<Body>)
    ensures var ops := MethodOps(name, sym, catches, body);
      && (forall t :: GraphDb.CreateMethodReturnType(name, t) in ops <==> sym.returnType == Returns(t))
      && (forall t :: GraphDb.CreateMethodParameter(name, t) in ops <==> t in sym.parameterTypes)
      && (forall e :: GraphDb.CreateExceptionHandler(name, e) in ops <==> CatchType(Some(e)) in catches)
  {
  }

  /** The body facts exist only for an analysed body: its local reads, its conditions, its positive branch count. */
  lemma MethodOpsBody(name: string, sym: MethodSymbol, catches: seq<CatchClause>, body: Option<Body>)
    ensures var ops := MethodOps(name, sym, catches, body);
      var analysed := body.Some? && body.value.dataFlowsIn.Some?;
      && (forall v, t :: GraphDb.CreateVariableRead(name, v, t) in ops <==>
            analysed && Local(v, t) in body.value.dataFlowsIn.value)
      && (forall e :: GraphDb.CreateBranchCondition(name, e) in ops <==>
            analysed && e in body.value.ifConditions)
      && (forall k :: GraphDb.AddBranchingComplexity(name, k) in ops <==>
            analysed && k == BranchCount(body.value) && k > 0)
  {
  }

  /** The parameter facts, picked out of everything extracted from the method, are one per parameter in order. */
  lemma MethodOpsParameters(name: string, sym: MethodSymbol, catches: seq<CatchClause>, body: Option<Body>)
    ensures Filter(MethodOps(name, sym, catches, body), IsParameterFact) == ParameterOps(name, sym.parameterTypes)
  {
    var ret := ReturnTypeOps(name, sym.returnType);
    var params := ParameterOps(name, sym.parameterTypes);
    var rest := CatchOps(name, catches) + BodyOps(name, body);
    assert MethodOps(name, sym, catches, body) == ret + params + rest;
    ReturnNotParameter(name, sym.returnType);
    ParametersAreParameterFacts(name, sym.parameterTypes);
    CatchAndBodyNotParameter(name, catches, body);
    FilterMiddle(ret, params, rest, IsParameterFact);
  }

  lemma ReturnNotParameter(name: string, returnType: ReturnType)
    ensures var ret := ReturnTypeOps(name, returnType);
      forall i :: 0 <= i < |ret| ==> !IsParameterFact(ret[i])
  {
    var ret := ReturnTypeOps(name, returnType);
    forall i | 0 <= i < |ret| ensures !IsParameterFact(ret[i]) {
      assert ret[i] in ret;
    }
  }

  lemma ParametersAreParameterFacts(name: string, types: seq<string>)
    ensures var params := ParameterOps(name, types);
      forall i :: 0 <= i < |params| ==> IsParameterFact(params[i])
  {
    var params := ParameterOps(name, types);
    forall i | 0 <= i < |params| ensures IsParameterFact(params[i]) {
      assert params[i] in params;
    }
  }

  lemma CatchAndBodyNotParameter(name: string, catches: seq<CatchClause>, body: Option<Body>)
    ensures var rest := CatchOps(name, catches) + BodyOps(name, body);
      forall i :: 0 <= i < |rest| ==> !IsParameterFact(rest[i])
  {
    var rest := CatchOps(name, catches) + BodyOps(name, body);
    forall i | 0 <= i < |rest| ensures !IsParameterFact(rest[i]) {
      assert rest[i] in CatchOps(name, catches) || rest[i] in BodyOps(name, body);
    }
  }

  /** For an analysed body, the condition facts among the body facts are one per `if` statement in order. */
  lemma BodyOpsConditions(name: string, b: Body)
    requires b.dataFlowsIn.Some?
    ensures Filter(BodyOps(name, Some(b)), IsConditionFact) == ConditionOps(name, b.ifConditions)
  {
    var flowReads := ReadOps(name, b.dataFlowsIn.value);
    var conds := ConditionOps(name, b.ifConditions);
    var tail := BranchOps(name, b);
    assert forall i :: 0 <= i < |flowReads| ==> !IsConditionFact(flowReads[i]) by {
      forall i | 0 <= i < |flowReads| ensures !IsConditionFact(flowReads[i]) {
        assert flowReads[i] in flowReads;
      }
    }
    assert forall i :: 0 <= i < |conds| ==> IsConditionFact(conds[i]) by {
      forall i | 0 <= i < |conds| ensures IsConditionFact(conds[i]) {
        assert conds[i] in conds;
      }
    }
    assert forall i :: 0 <= i < |tail| ==> !IsConditionFact(tail[i]) by {
      forall i | 0 <= i < |tail| ensures !IsConditionFact(tail[i]) {
        assert tail[i] in tail;
      }
    }
    FilterMiddle(flowReads, conds, tail, IsConditionFact);
  }

  /** For an analysed body, the condition facts are one per `if` statement in order. */
  lemma MethodOpsConditions(name: string, sym: MethodSymbol, catches: seq<CatchClause>, b: Body)
    requires b.dataFlowsIn.Some?
    ensures Filter(MethodOps(name, sym, catches, Some(b)), IsConditionFact) == ConditionOps(name, b.ifConditions)
  {
    var front := ReturnTypeOps(name, sym.returnType) + ParameterOps(name, sym.parameterTypes)
      + CatchOps(name, catches);
    var body := BodyOps(name, Some(b));
    assert MethodOps(name, sym, catches, Some(b)) == front + body;
    assert forall i :: 0 <= i < |front| ==> !IsConditionFact(front[i]) by {
      forall i | 0 <= i < |front| ensures !IsConditionFact(front[i]) {
        assert front[i] in front;
      }
    }
    FilterNone(front, IsConditionFact);
    FilterConcat(front, body, IsConditionFact);
    BodyOpsConditions(name, b);
  }

  /**
   * A return-type fact unless the method returns `void`; one parameter fact per parameter,
   * repeats included; a handler fact per typed catch clause, whether or not the body is analysed.
   */
  lemma MethodSignatureFacts(m: MethodDecl)
    requires OwnedMethodName(m).Some?
    ensures var name := OwnedMethodName(m).value;
      var sym := m.symbol.value;
      var ops := ProcessMethod(m);
      && (forall t :: GraphDb.CreateMethodReturnType(name, t) in ops <==> sym.returnType == Returns(t))
      && (forall t :: GraphDb.CreateMethodParameter(name, t) in ops <==> t in sym.parameterTypes)
      && |Filter(ops, IsParameterFact)| == |sym.parameterTypes|
      && (forall e :: GraphDb.CreateExceptionHandler(name, e) in ops <==> CatchType(Some(e)) in m.catches)
  {
    var sym := m.symbol.value;
    assert ProcessMethod(m) == MethodOps(sym.display, sym, m.catches, m.body);
    MethodOpsSignature(sym.display, sym, m.catches, m.body);
    MethodOpsParameters(sym.display, sym, m.catches, m.body);
  }

  /**
   * Body facts exist only when the body was analysed: a read per local variable flowing in, a
   * condition per `if` (repeats included), and the branch count when it is positive.
   */
  lemma MethodBodyFacts(m: MethodDecl)
    requires OwnedMethodName(m).Some?
    ensures var name := OwnedMethodName(m).value;
      var ops := ProcessMethod(m);
      && (forall v, t :: GraphDb.CreateVariableRead(name, v, t) in ops <==>
            Analysed(m) && Local(v, t) in m.body.value.dataFlowsIn.value)
      && (forall e :: GraphDb.CreateBranchCondition(name, e) in ops <==>
            Analysed(m) && e in m.body.value.ifConditions)
      && (forall k :: GraphDb.AddBranchingComplexity(name, k) in ops <==>
            Analysed(m) && k == BranchCount(m.body.value) && k > 0)
      && (Analysed(m) ==> |Filter(ops, IsConditionFact)| == |m.body.value.ifConditions|)
  {
    var sym := m.symbol.value;
    assert ProcessMethod(m) == MethodOps(sym.display, sym, m.catches, m.body);
    MethodOpsBody(sym.display, sym, m.catches, m.body);
    if Analysed(m) {
      MethodOpsConditions(sym.display, sym, m.catches, m.body.value);
    }
  }

  /** The three categories, decided by prefix, Security first. */
  lemma CategoryRule(id: string)
    ensures Category(id) == "Security" <==> StartsWith(id, "SCS")
    ensures Category(id) == "Performance" <==> !StartsWith(id, "SCS") && (StartsWith(id, "CA18") || StartsWith(id, "CA19"))
    ensures Category(id) == "Compiler" <==> !StartsWith(id, "SCS") && !StartsWith(id, "CA18") && !StartsWith(id, "CA19")
  {
  }

  lemma CategoryExamples()
    ensures Category("SCS0005") == "Security"
    ensures Category("CA1822") == "Performance" && Category("CA1900") == "Performance"
    ensures Category("CA2000") == "Compiler" && Category("CS0168") == "Compiler" && Category("CA1") == "Compiler"
  {
    assert StartsWith("SCS0005", "SCS");
    assert StartsWith("CA1822", "CA18") && "CA1822"[..3] == "CA1";
    assert StartsWith("CA1900", "CA19") && "CA1900"[..3] == "CA1";
    assert "CA2000"[..4] == "CA20";
    assert "CS0168"[..3] == "CS0";
  }
}

=== FILE: property_graph.dfy ===
/**
 * An abstract property graph and the effect of the Cypher clause shapes the services run on it.
 *
 * A node's identity is its position in `nodes`; nodes are never removed except by deleting all of them.
 * Relationships are (source, type, target) triples: every relationship is created by MERGE,
 * so the same triple never exists twice. `indexes` is the schema (vector indexes by name),
 * which deleting nodes does not touch.
 */
module PropertyGraph {

  datatype Label = Class | Record | Type | Method | Interface | Attribute
                 | Variable | Condition | Exception | Diagnostic | GodClass

  datatype Value = Str(s: string) | Int(n: int) | Vector(v: seq<real>)

  type Props = map<string, Value>

  datatype Node = Node(labels: set<Label>, props: Props)

  datatype Rel = DependsOn | HasAttribute | Inherits | Implements | Calls
               | ReadsVariable | HasCondition | Catches | Returns | HasParameter | HasIssue

  type NodeId = nat

  datatype Edge = Edge(src: NodeId, rel: Rel, dst: NodeId)

  /** A node pattern `(:L {k: v, …})`; an empty label set matches nodes of any label. */
  datatype Pattern = Pattern(labels: set<Label>, props: Props)

  datatype VectorIndex = VectorIndex(nodeLabel: Label, property: string, dimensions: nat, similarity: string)

  datatype Graph = Graph(nodes: seq<Node>, edges: set<Edge>, indexes: map<string, VectorIndex>)

  /** A graph with no nodes, no relationships and no indexes. */
  const EmptyGraph := Graph([], {}, map[])

  /** Every relationship joins two existing nodes. */
  predicate Valid(g: Graph) {
    forall e :: e in g.edges ==> e.src < |g.nodes| && e.dst < |g.nodes|
  }

  /** A node matches a pattern when it has all of the pattern's labels and all of its properties. */
  predicate Matches(n: Node, p: Pattern) {
    && p.labels <= n.labels
    && p.props.Keys <= n.props.Keys
    && forall k :: k in p.props ==> n.props[k] == p.props[k]
  }

  /** The node that CREATE or MERGE builds from a pattern: exactly its labels and properties. */
  function NodeOf(p: Pattern): Node {
    Node(p.labels, p.props)
  }

  /** `MATCH (n:L {…})`: the identities of all matching nodes. */
  function MatchAll(nodes: seq<Node>, p: Pattern): (ids: set<NodeId>)
    ensures forall i :: i in ids ==> i < |nodes| && Matches(nodes[i], p)
    ensures forall i: NodeId :: i < |nodes| && Matches(nodes[i], p) ==> i in ids
  {
    set i: NodeId | i < |nodes| && Matches(nodes[i], p)
  }

  lemma MatchAllAppend(nodes: seq<Node>, n: Node, p: Pattern)
    ensures MatchAll(nodes + [n], p) == MatchAll(nodes, p) + (if Matches(n, p) then {|nodes|} else {})
  {
    var a := MatchAll(nodes + [n], p);
    var b := MatchAll(nodes, p) + (if Matches(n, p) then {|nodes|} else {});
    forall i | i in a ensures i in b {
      if i < |nodes| {
        assert (nodes + [n])[i] == nodes[i];
      }
    }
    forall i | i in b ensures i in a {
      if i < |nodes| {
        assert (nodes + [n])[i] == nodes[i];
      }
    }
  }

  /** `CREATE (n:L {…})`: always a new node, whatever already exists. */
  function Create(g: Graph, p: Pattern): (r: Graph)
    ensures |r.nodes| == |g.nodes| + 1 && r.nodes[..|g.nodes|] == g.nodes
    ensures MatchAll(r.nodes, p) == MatchAll(g.nodes, p) + {|g.nodes|}
    ensures r.edges == g.edges && r.indexes == g.indexes
  {
    MatchAllAppend(g.nodes, NodeOf(p), p);
    g.(nodes := g.nodes + [NodeOf(p)])
  }

  /**
   * `MERGE (n:L {…})`: binds every node that already matches; when none does, creates the pattern's
   * node and binds it. Either way the bound identities are exactly the matches afterwards.
   */
  function Merge(g: Graph, p: Pattern): (r: (Graph, set<NodeId>))
    ensures r.1 == MatchAll(r.0.nodes, p) && r.1 != {}
    ensures MatchAll(g.nodes, p) != {} ==> r.0 == g
    ensures MatchAll(g.nodes, p) == {} ==> r.0.nodes == g.nodes + [NodeOf(p)]
    ensures r.0.edges == g.edges && r.0.indexes == g.indexes
  {
    var found := MatchAll(g.nodes, p);
    if found != {} then (g, found)
    else
      MatchAllAppend(g.nodes, NodeOf(p), p);
      (g.(nodes := g.nodes + [NodeOf(p)]), {|g.nodes|})
  }

  /** The relationships `(s)-[:rel]->(d)` for every bound pair. */
  function Pairs(srcs: set<NodeId>, rel: Rel, dsts: set<NodeId>): set<Edge> {
    set s, d | s in srcs && d in dsts :: Edge(s, rel, d)
  }

  /** `MERGE (a)-[:R]->(b)` for every bound pair: a triple already present is reused, not repeated. */
  function Link(g: Graph, srcs: set<NodeId>, rel: Rel, dsts: set<NodeId>): (r: Graph) {
    g.(edges := g.edges + Pairs(srcs, rel, dsts))
  }

  /** `MERGE (a:A {…}) MERGE (b:B {…}) MERGE (a)-[:R]->(b)`, or `(b)-[:R]->(a)` when `forward` is false. */
  function MergeMergeLink(g: Graph, first: Pattern, second: Pattern, rel: Rel, forward: bool): (r: Graph) {
    var (g1, xs) := Merge(g, first);
    var (g2, ys) := Merge(g1, second);
    if forward then Link(g2, xs, rel, ys) else Link(g2, ys, rel, xs)
  }

  /** MERGE neither reads nor writes the schema. */
  lemma MergeIgnoresSchema(g: Graph, p: Pattern, ix: map<string, VectorIndex>)
    ensures Merge(g.(indexes := ix), p) == (Merge(g, p).0.(indexes := ix), Merge(g, p).1)
  {
  }

  lemma MergeMergeLinkIgnoresSchema(g: Graph, first: Pattern, second: Pattern, rel: Rel, forward: bool,
                                    ix: map<string, VectorIndex>)
    ensures MergeMergeLink(g.(indexes := ix), first, second, rel, forward)
         == MergeMergeLink(g, first, second, rel, forward).(indexes := ix)
  {
    MergeIgnoresSchema(g, first, ix);
    MergeIgnoresSchema(Merge(g, first).0, second, ix);
  }

  /** `MERGE (t:T {…}) WITH t MATCH (o:O {…}) MERGE (o)-[:R]->(t)`. */
  function MergeMatchLink(g: Graph, target: Pattern, owner: Pattern, rel: Rel): (r: Graph) {
    var (g1, ts) := Merge(g, target);
    Link(g1, MatchAll(g1.nodes, owner), rel, ts)
  }

  /** `MATCH (n …) SET n.key = v`: every matching node gets the value; with no match nothing changes. */
  function SetProp(g: Graph, p: Pattern, key: string, v: Value): (r: Graph)
    ensures |r.nodes| == |g.nodes| && r.edges == g.edges && r.indexes == g.indexes
    ensures forall i :: 0 <= i < |g.nodes| && !Matches(g.nodes[i], p) ==> r.nodes[i] == g.nodes[i]
    ensures forall i :: 0 <= i < |g.nodes| && Matches(g.nodes[i], p) ==>
              r.nodes[i].labels == g.nodes[i].labels && r.nodes[i].props == g.nodes[i].props[key := v]
  {
    g.(nodes := seq(|g.nodes|, i requires 0 <= i < |g.nodes| => SetNodeProp(g.nodes[i], p, key, v)))
  }

  /** The node-wise effect of `SetProp`. */
  function SetNodeProp(n: Node, p: Pattern, key: string, v: Value): Node {
    if Matches(n, p) then n.(props := n.props[key := v]) else n
  }

  /** On one node: setting a key the pattern does not mention keeps the node matching, and the second value stays. */
  lemma SetNodePropTwice(n: Node, p: Pattern, key: string, v1: Value, v2: Value)
    requires key !in p.props
    ensures SetNodeProp(SetNodeProp(n, p, key, v1), p, key, v2) == SetNodeProp(n, p, key, v2)
  {
    if Matches(n, p) {
      var n1 := SetNodeProp(n, p, key, v1);
      assert Matches(n1, p) by {
        forall k | k in p.props ensures n1.props[k] == n.props[k] {
          assert k != key;
        }
      }
      assert n.props[key := v1][key := v2] == n.props[key := v2];
    }
  }

  /** Two SETs of a key the pattern does not mention: the second value is the one that stays. */
  lemma SetPropLastWriteWins(g: Graph, p: Pattern, key: string, v1: Value, v2: Value)
    requires key !in p.props
    ensures SetProp(SetProp(g, p, key, v1), p, key, v2) == SetProp(g, p, key, v2)
  {
    var g1 := SetProp(g, p, key, v1);
    var a := SetProp(g1, p, key, v2);
    var b := SetProp(g, p, key, v2);
    forall i | 0 <= i < |g.nodes| ensures a.nodes[i] == b.nodes[i] {
      SetNodePropTwice(g.nodes[i], p, key, v1, v2);
    }
  }

  /** `MATCH (n …) SET n:L`: every matching node gains the label. */
  function AddLabel(g: Graph, p: Pattern, l: Label): (r: Graph)
    ensures |r.nodes| == |g.nodes| && r.edges == g.edges && r.indexes == g.indexes
    ensures forall i :: 0 <= i < |g.nodes| ==>
              r.nodes[i].props == g.nodes[i].props
              && r.nodes[i].labels == g.nodes[i].labels + (if Matches(g.nodes[i], p) then {l} else {})
  {
    g.(nodes := seq(|g.nodes|, i requires 0 <= i < |g.nodes| =>
                    if Matches(g.nodes[i], p) then g.nodes[i].(labels := g.nodes[i].labels + {l})
                    else g.nodes[i]))
  }

  /** `MATCH (n) DETACH DELETE n`: every node and relationship goes; the schema stays. */
  function DetachDeleteAll(g: Graph): (r: Graph)
    ensures r.nodes == [] && r.edges == {} && r.indexes == g.indexes
  {
    g.(nodes := [], edges := {})
  }

  /** One row of `MATCH (n)-[r]->(m) RETURN n, r, m`. */
  datatype Row = Row(srcId: NodeId, src: Node, rel: Rel, dstId: NodeId, dst: Node)

  /** The rows `MATCH (n)-[r]->(m) RETURN n, r, m` returns: one per relationship, with both end nodes. */
  function Dump(g: Graph): (rows: set<Row>)
    ensures forall e :: e in g.edges && e.src < |g.nodes| && e.dst < |g.nodes| ==>
              Row(e.src, g.nodes[e.src], e.rel, e.dst, g.nodes[e.dst]) in rows
    ensures forall row :: row in rows ==>
              Edge(row.srcId, row.rel, row.dstId) in g.edges && row.srcId < |g.nodes| && row.dstId < |g.nodes|
              && row.src == g.nodes[row.srcId] && row.dst == g.nodes[row.dstId]
  {
    set e | e in g.edges && e.src < |g.nodes| && e.dst < |g.nodes| ::
      Row(e.src, g.nodes[e.src], e.rel, e.dst, g.nodes[e.dst])
  }

  /** A node appears in the dump exactly when some relationship starts or ends at it. */
  lemma DumpOmitsIsolatedNodes(g: Graph, i: NodeId)
    requires Valid(g) && i < |g.nodes|
    ensures (exists row :: row in Dump(g) && (row.srcId == i || row.dstId == i))
        <==> (exists e :: e in g.edges && (e.src == i || e.dst == i))
  {
    if e :| e in g.edges && (e.src == i || e.dst == i) {
      var row := Row(e.src, g.nodes[e.src], e.rel, e.dst, g.nodes[e.dst]);
      assert row in Dump(g);
    }
  }

  /** `CREATE … INDEX name IF NOT EXISTS`: nothing happens when an index of that name exists. */
  function CreateIndexIfNotExists(g: Graph, name: string, spec: VectorIndex): (r: Graph)
    ensures name in r.indexes
    ensures name in g.indexes ==> r == g
    ensures name !in g.indexes ==> r.indexes == g.indexes[name := spec]
    ensures r.nodes == g.nodes && r.edges == g.edges
  {
    if name in g.indexes then g else g.(indexes := g.indexes[name := spec])
  }

  // ---- Properties of the statement shapes ----

  /**
   * Both MERGE'd nodes exist afterwards, the relationship joins every bound pair, and only
   * relationships are added. `second`'s created node must not match `first` (distinct labels).
   */
  lemma MergeMergeLinkEffect(g: Graph, first: Pattern, second: Pattern, rel: Rel, forward: bool)
    requires !Matches(NodeOf(second), first)
    ensures var r := MergeMergeLink(g, first, second, rel, forward);
      && MatchAll(r.nodes, first) != {} && MatchAll(r.nodes, second) != {}
      && g.nodes <= r.nodes && |r.nodes| <= |g.nodes| + 2
      && (forall i :: |g.nodes| <= i < |r.nodes| ==> r.nodes[i] == NodeOf(first) || r.nodes[i] == NodeOf(second))
      && r.edges == g.edges + (if forward then Pairs(MatchAll(r.nodes, first), rel, MatchAll(r.nodes, second))
                               else Pairs(MatchAll(r.nodes, second), rel, MatchAll(r.nodes, first)))
      && r.indexes == g.indexes
  {
    var (g1, xs) := Merge(g, first);
    var (g2, ys) := Merge(g1, second);
    if MatchAll(g1.nodes, second) == {} {
      MatchAllAppend(g1.nodes, NodeOf(second), first);
    }
    assert MatchAll(g2.nodes, first) == xs;
  }

  /** Running a MERGE-MERGE-link statement a second time changes nothing. */
  lemma MergeMergeLinkIdempotent(g: Graph, first: Pattern, second: Pattern, rel: Rel, forward: bool)
    requires !Matches(NodeOf(second), first)
    ensures var r := MergeMergeLink(g, first, second, rel, forward);
      MergeMergeLink(r, first, second, rel, forward) == r
  {
    var r := MergeMergeLink(g, first, second, rel, forward);
    MergeMergeLinkEffect(g, first, second, rel, forward);
    var (h1, xs) := Merge(r, first);
    var (h2, ys) := Merge(h1, second);
    assert h1 == r && h2 == r;
  }

  /**
   * The target always exists afterwards; the owners are exactly those that existed before
   * (the statement never creates one); relationships are added from each owner to the target,
   * so none when no owner matched. The target's node must not match the owner pattern.
   */
  lemma MergeMatchLinkEffect(g: Graph, target: Pattern, owner: Pattern, rel: Rel)
    requires !Matches(NodeOf(target), owner)
    ensures var r := MergeMatchLink(g, target, owner, rel);
      && MatchAll(r.nodes, target) != {}
      && MatchAll(r.nodes, owner) == MatchAll(g.nodes, owner)
      && g.nodes <= r.nodes && |r.nodes| <= |g.nodes| + 1
      && (forall i :: |g.nodes| <= i < |r.nodes| ==> r.nodes[i] == NodeOf(target))
      && r.edges == g.edges + Pairs(MatchAll(g.nodes, owner), rel, MatchAll(r.nodes, target))
      && r.indexes == g.indexes
  {
    var (g1, ts) := Merge(g, target);
    if MatchAll(g.nodes, target) == {} {
      MatchAllAppend(g.nodes, NodeOf(target), owner);
    }
  }

  /** Running a MERGE-MATCH-link statement a second time changes nothing. */
  lemma MergeMatchLinkIdempotent(g: Graph, target: Pattern, owner: Pattern, rel: Rel)
    ensures var r := MergeMatchLink(g, target, owner, rel);
      MergeMatchLink(r, target, owner, rel) == r
  {
    var (g1, ts) := Merge(g, target);
    var r := MergeMatchLink(g, target, owner, rel);
    assert r.nodes == g1.nodes;
    var (h1, us) := Merge(r, target);
    assert h1 == r && us == ts;
  }
}

=== FILE: semantics.dfy ===
/**
 * What the compiler front end (syntax trees plus semantic model) tells the processor, as plain data.
 * Every lookup that may fail in the front end (`GetDeclaredSymbol`, `GetSymbolInfo`,
 * `AnalyzeDataFlow`, the enclosing-class search) is an `Option` or an explicit alternative here,
 * so the processor can only branch on the answer, never assume it.
 */
module Semantics {
  import opened Base

  /**
   * A resolved type as `ToDisplayString` shows it. A named type carries its type arguments
   * (none when it is not generic); any other type (array, pointer, type parameter) is not walked.
   */
  datatype TypeTree = Named(display: string, args: seq<TypeTree>) | Unnamed(display: string)

  /** The symbol a type expression resolves to: a type, or some other symbol (a namespace, an alias). */
  datatype Symbol = TypeSymbol(tree: TypeTree) | OtherSymbol(name: string)

  function Display(s: Symbol): string {
    match s
    case TypeSymbol(t) => t.display
    case OtherSymbol(n) => n
  }

  /** `GetSymbolInfo`: the symbol when resolution succeeded, and the candidates when it was ambiguous. */
  datatype SymbolInfo = SymbolInfo(symbol: Option<Symbol>, candidates: seq<Symbol>)

  /** `info.Symbol ?? info.CandidateSymbols.FirstOrDefault()`. */
  function Resolve(info: SymbolInfo): (r: Option<Symbol>)
    ensures info.symbol.Some? ==> r == info.symbol
    ensures info.symbol.None? && |info.candidates| > 0 ==> r == Some(info.candidates[0])
    ensures r.None? <==> info.symbol.None? && |info.candidates| == 0
  {
    if info.symbol.Some? then info.symbol
    else if |info.candidates| > 0 then Some(info.candidates[0])
    else None
  }

  /** A class's base type; `isObject` is `SpecialType == System_Object`. */
  datatype BaseType = BaseType(display: string, isObject: bool)

  /** The declared symbol of a class: its full name, namespace, base type and direct interfaces. */
  datatype ClassSymbol = ClassSymbol(display: string, containingNamespace: string,
                                     baseType: Option<BaseType>, interfaces: seq<string>)

  /** A field declaration: one declared type shared by one or more variables. */
  datatype FieldDecl = FieldDecl(typeInfo: SymbolInfo, variables: seq<string>)

  /**
   * A class declaration. `identifierText` is the identifier token as written (a verbatim
   * identifier keeps its `@`); `valueText` is its value (without the `@`). `attributes` holds,
   * per attribute usage, the display name of the resolved attribute's containing type, or `None`
   * when the attribute does not resolve.
   */
  datatype ClassDecl = ClassDecl(identifierText: string, valueText: string, text: string,
                                 symbol: Option<ClassSymbol>, properties: seq<SymbolInfo>, fields: seq<FieldDecl>,
                                 attributes: seq<Option<string>>)

  /** The declared symbol of a record: its full name and namespace. */
  datatype RecordSymbol = RecordSymbol(display: string, containingNamespace: string)

  /** A positional record parameter; `typeInfo` is `None` when the parameter has no type syntax. */
  datatype Parameter = Parameter(typeInfo: Option<SymbolInfo>)

  /**
   * A record declaration, with its identifier as written and as a value, as for classes;
   * `parameters` is `None` when it has no parameter list.
   */
  datatype RecordDecl = RecordDecl(identifierText: string, valueText: string, text: string,
                                   symbol: Option<RecordSymbol>, parameters: Option<seq<Parameter>>)

  /**
   * The first class declaration among a node's ancestors, and what its declared symbol displays
   * as. Ancestors exclude the node itself: for a class declaration this is the class around it.
   */
  datatype Enclosing = NoClass | InClass(classSymbol: Option<string>)

  /** A method's return type; `Void` is `SpecialType == System_Void`. */
  datatype ReturnType = Void | Returns(display: string)

  datatype MethodSymbol = MethodSymbol(display: string, returnType: ReturnType, parameterTypes: seq<string>)

  /**
   * A catch clause: `CatchAll` has no declaration or no type; `CatchType` holds the display of the
   * caught type when it resolves to a type symbol.
   */
  datatype CatchClause = CatchAll | CatchType(resolved: Option<string>)

  /** A symbol whose value flows into the analysed body: a local variable, or anything else. */
  datatype FlowSymbol = Local(name: string, typeDisplay: string) | NonLocal

  /**
   * A method body: the data-flow answer (`None` when the analysis gives nothing), the condition text
   * of every `if` statement anywhere in the body (nested ones included), and the number of `switch` statements.
   */
  datatype Body = Body(dataFlowsIn: Option<seq<FlowSymbol>>, ifConditions: seq<string>, switchCount: nat)

  datatype MethodDecl = MethodDecl(symbol: Option<MethodSymbol>, enclosing: Enclosing,
                                   catches: seq<CatchClause>, body: Option<Body>)

  /** An invocation: the invoked method's display when it resolves, and where the call sits. */
  datatype Invocation = Invocation(invoked: Option<string>, enclosing: Enclosing)

  datatype Severity = Hidden | Info | Warning | Error

  /** `DiagnosticSeverity.ToString()`. */
  function SeverityName(s: Severity): string {
    match s
    case Hidden => "Hidden"
    case Info => "Info"
    case Warning => "Warning"
    case Error => "Error"
  }

  /**
   * Where a diagnostic sits: outside any source file, or in a syntax tree; `node` is the syntax
   * node found at its span (`None` when none is found) and the class strictly above that node.
   * A diagnostic reported on a class's own header finds the class declaration itself, so its
   * enclosing class is the one around that class, or none for a top-level class.
   */
  datatype Location = NotInSource | InSource(tree: nat, node: Option<Enclosing>)

  datatype DiagnosticInfo = DiagnosticInfo(id: string, message: string, severity: Severity, location: Location)
}
